=== FILE: README.md ===
# Customer-churn dashboard: a Dafny model of its two pipelines

The dashboard shows churn statistics of a bank's customers per country and predicts,
for one row of an uploaded CSV file, the probability that the customer leaves, using
either a neural network (`ann`) or a random forest (`random_forest`). This project
models the two pieces of logic behind it:

- **The country summary** (`Home`, home.dfy): `get_country_code` and `get_geo_churn_data`.
  France, Germany and Spain are visited in that order. For each, the records whose
  `Geography_<country>` flag is 1 are kept. A country with no record is skipped. Otherwise
  the summary gets one row: customer count, churned count, churn rate and the five column
  means. Rates and means are kept as numerator/denominator pairs (`Fraction`), so the
  statistics stay exact.
- **The prediction callback** (`Churn`, churn.dfy): `cell_select` with `to_binary`, the
  12-field presence check, the 12-column input frame, the `model_map` lookup, `load_model`
  and `predict_customer_churn` (the suffix dispatch), and the small dispatches
  `parse_upload` with the `upload_file` callback that shows its result, `render_content`, `get_nav_items` and the ISO lookup of
  `display_country_details`. Table cells are a tagged `Value` (`Str | Int | Real | Bool | Null`).
  Python's `==` between a cell and the string "1" holds only for `Str("1")`. An exception
  that escapes a callback is a `Failure(e)` of `Result`.
- **Python built-ins the callback relies on** (`Text`, text.dfy): `int(str)`, `float(str)`,
  `str(int)`, `str.split`, `in` on strings and `str.endswith`.
- **Cross-operation properties** (`Properties`, properties.dfy): the callback's outcomes end
  to end, the detail card against the summary, and the rates' ranges.

Calls into code the model cannot see become parameters:
- `os.path.exists` is the set `existing` of paths that exist.
- The scaler plus `model.predict` / `predict_proba` are one opaque function `infer`. It maps
  the loaded model and the feature vector to the prediction matrix.

Behaviours the model reproduces as written:
- A registered model whose artifact file is missing: `load_model` returns None, and
  `predict_customer_churn` then raises `AttributeError` on it (`Properties.MissingArtifactRaises`).
- A non-numeric cell in a numeric column: `int`/`float` raise `ValueError`, and it escapes the
  callback (`Properties.BadNumberRaises`).
- The three geography features are always 0 (see Findings). `Churn.CellSelect` uses this
  as-written encoder.
- `to_binary` answers 1 only for the string "1", never for the number 1 or `True`
  (`Properties.ToBinaryIsStrict`). So `Gender` and `HasCrCard` encode as 0 whenever the
  table delivers them as numbers.

## Model

| member | source | states |
|---|---|---|
| Home.GetCountryCode | src/pages/page_home.py:8-10 | France, Germany and Spain map to FRA, DEU and ESP (each code only from its own name); every other name maps to "" |
| Home.Rank | src/pages/page_home.py:16 | each country's position in the loop list France, Germany, Spain |
| Home.Matching | src/pages/page_home.py:17 | the country's frame is no longer than the input and holds only records whose flag for the country is 1 |
| Home.MatchingSelects | src/pages/page_home.py:17 | the country's frame holds each record with flag 1 exactly as often as the input does, and no other record |
| Home.Sum | src/pages/page_home.py:24-28 | the column sum of no records is 0 and of one record is that record's value |
| Home.SumAppend | src/pages/page_home.py:24-28 | the column sum of a concatenation is the sum of the parts' sums, so each record's value is added once |
| Home.Mean | src/pages/page_home.py:24-28 | `.mean()` of a non-empty frame is the column sum over the number of records, which is non-zero |
| Home.CountExited | src/pages/page_home.py:21 | the churned count is at most the frame size; it equals the size iff every record has Exited == 1, and is 0 iff none has; a one-record frame counts 1 exactly when that record has Exited == 1 |
| Home.CountExitedAppend | src/pages/page_home.py:21 | the churned count of a concatenation is the sum of the parts' counts; with the one-record value this makes it the number of records with Exited == 1 on every frame |
| Home.SumWithin | src/pages/page_home.py:24-28 | a column bounded by [lo, hi] sums to between lo·n and hi·n |
| Home.MeanWithin | src/pages/page_home.py:24-28 | each column mean lies within the column's bounds (so the active-member rate of a 0/1 column is in [0, 1]) |
| Home.WithinValue | src/pages/page_home.py:22 | a fraction whose numerator is between lo and hi times its denominator has its value in [lo, hi] |
| Home.Summarize | src/pages/page_home.py:19-43 | an emitted row is for its own country, has a non-empty ISO code that `get_country_code` gives for the name, counts every record of the country (> 0), its churned count is the number of the country's records with Exited == 1 (≤ total), its churn rate is churned/total within [0, 1], and its five averages are the means of the country's CreditScore, Age, Balance, Tenure and IsActiveMember columns |
| Home.RowFor | src/pages/page_home.py:19-30 | one loop iteration appends exactly one row iff the country has a record, and that row is the country's summary |
| Home.GeoChurnFrom | src/pages/page_home.py:16-43 | the loop emits no more rows than it visits countries |
| Home.GeoChurnFromCountries | src/pages/page_home.py:16-43 | every emitted row is for a visited country that has at least one record |
| Home.GeoChurnFromRows | src/pages/page_home.py:16-43 | every emitted row is the summary of its own country |
| Home.GeoChurnFromOrder | src/pages/page_home.py:16-43 | rows come out strictly in the order the countries are visited, so no country twice |
| Home.GeoChurnFromAbove | src/pages/page_home.py:16-43 | visiting only countries ranked above some rank emits only rows ranked above it |
| Home.GeoChurnFromEmits | src/pages/page_home.py:16-43 | a visited country with at least one record gets a row |
| Home.GeoChurnFromPresence | src/pages/page_home.py:16-43 | a visited country has a row iff it has at least one record |
| Home.GeoChurnOverCountries | src/pages/page_home.py:16-43 | over the loop list France, Germany, Spain, a country has a row iff it has at least one record |
| Home.GetGeoChurnData | src/pages/page_home.py:13-45 | at most three rows, in France/Germany/Spain order without repeats, each its country's summary, and a country appears iff it has a record |
| Home.EmptySummary | src/pages/page_home.py:13-45 | the summary frame is empty iff no country has a record |
| Home.CountsAddUp | src/pages/page_home.py:16-20 | if no record sets two geography flags, the three per-country counts add up to at most the input size, and exactly to it when every record sets one flag |
| Home.TotalOfSummary | src/pages/page_home.py:16-20 | the summary's total customers equal the sum of the three per-country counts |
| Home.SummaryCountsEachRecordOnce | src/pages/page_home.py:16-20 | with at most one flag per record, total customers over the summary ≤ number of records, with equality when each record has exactly one flag |
| Home.TwoFrenchCustomers | src/pages/page_home.py:13-45 | two French records, one exited, give the single row France/FRA with total 2, churned 1, rate 0.5 |
| Text.DigitsRoundTrip | src/churn.py:177 | the decimal spelling of a natural number reads back as that number |
| Text.IntRoundTrip | src/churn.py:177 | `int(str(i)) == i` for every integer |
| Text.ParseInt | src/churn.py:177 | `int(s)` succeeds iff `s` is a digit, or a sign followed by at least one more character, and every later character is a digit; a negative result needs a leading minus |
| Text.ParseReal | src/churn.py:181-184 | `float(s)` succeeds iff `s`, after one optional leading sign, has decimal-literal shape (Text.DecimalShape: only digits and points, at most one point, at least one digit); a negative result needs a leading minus; its value on every decimal literal is given by Text.DecimalValue and Text.NegativeDecimalValue |
| Text.UnsignedRealShape | src/churn.py:181-184 | the unsigned reader accepts exactly the strings of decimal-literal shape |
| Text.NonNumbersRejected | src/churn.py:177-184 | "", "-", "abc", "12a", "1.5" and "1-2" are not integers; "", ".", "-.", "abc", "12a" and "1.2.3" are not decimal numbers: `int`/`float` raise ValueError on them |
| Text.RealAgreesWithInt | src/churn.py:181 | every string `int` accepts, `float` accepts with the same value |
| Text.DigitsValueAppend | src/churn.py:181-184 | the value of two digit runs written one after the other is the first shifted left by the second's length plus the second |
| Text.DecimalValue | src/churn.py:181-184 | `float` of a decimal literal `w.f`, read as an exact real, is the digits of `w` and `f` read as one integer, divided by ten to the number of digits after the point |
| Text.NegativeDecimalValue | src/churn.py:181-184 | `float` of `-w.f` is the negation of that same quotient |
| Text.UnsignedDecimalValue | src/churn.py:181-184 | `float` of an unsigned decimal literal is its whole part plus its fraction part scaled down by ten to the fraction's length |
| Text.SplitJoin | src/churn.py:325 | splitting at a separator undoes joining parts that do not contain it |
| Text.JoinSplit | src/churn.py:325 | joining the parts of a split rebuilds the string |
| Text.Split | src/churn.py:325 | `s.split(c)` gives at least one part, and no part contains the separator |
| Text.Contains | src/churn.py:326 | `sub in s` holds only when `sub` is no longer than `s` |
| Text.ContainsInfix | src/churn.py:326 | `sub` is in every string that has it between some prefix and suffix |
| Text.EndsWith | src/churn.py:245-266 | a string that ends with `suffix` is its own prefix followed by `suffix` |
| Text.EndsWithAppend | src/churn.py:245-266 | every string followed by `suffix` ends with `suffix` |
| Text.EndsWithTrans | src/churn.py:245-266 | a suffix of a suffix is a suffix |
| Churn.ToBinary | src/churn.py:106-107 | the result is 0 or 1, and 1 exactly when the value is the string "1" |
| Churn.Trunc | src/churn.py:177 | `int` of a float truncates toward zero: within 1 of the input, never beyond it |
| Churn.PyInt | src/churn.py:177-185 | `int(v)`: None raises TypeError; a string gives its integer value, or ValueError when it does not spell one; an integer is itself; a float is truncated toward zero (`Trunc`); True/False give 1/0 |
| Churn.PyFloat | src/churn.py:181-184 | `float(v)`: None raises TypeError; a string gives its decimal value, or ValueError when it does not spell one; numbers convert unchanged; True/False give 1.0/0.0 |
| Churn.FloatAcceptsInts | src/churn.py:177-184 | wherever `int` succeeds on a non-float, `float` succeeds with the same value |
| Churn.Get | src/churn.py:137-148 | `row.get(key, None)` is the cell when the column exists and None otherwise |
| Churn.HasAllFields | src/churn.py:150-165 | a row passing the presence check has every one of the 12 model columns (Properties.PresenceCheckCoversColumns gives the iff with non-None cells) |
| Churn.Columns | src/churn.py:174-205 | the input frame has exactly 12 entries, entry i being the vector's value in column i of CreditScore, Gender, Age, Tenure, Balance, NumOfProducts, HasCrCard, IsActiveMember, EstimatedSalary, Geography_France/Germany/Spain |
| Churn.GeoAsWritten | src/churn.py:186-188 | `to_binary(cell == code)` as written is 0 for every cell and code |
| Churn.EncodeWith | src/churn.py:174-205 | the encoding succeeds iff all seven numeric cells convert; then each entry is its cell's conversion, Gender and HasCrCard are to_binary of their cells, and on a complete row a failure is a ValueError |
| Churn.EncodeFeatures | src/churn.py:174-205 | the encoding as written: as above, and all three geography entries are 0 |
| Churn.EncodeFeaturesIntended | src/churn.py:186-188 | the geography entry of each country is 1 iff its cell is exactly FRA / DEU / ESP |
| Churn.PyIntRoundTrip | src/churn.py:177 | a cell holding the decimal spelling of an integer converts back to it |
| Churn.FormatRowCells | src/churn.py:137-148 | the cells a formatted row presents to `row.get` |
| Churn.IntendedRoundTrip | src/churn.py:174-205 | formatting a vector with 0/1 flags as a table row and encoding it gives the vector back |
| Churn.AsWrittenRoundTrip | src/churn.py:186-188 | as written, that round trip holds iff the vector has no country flag set |
| Churn.GermanRowScenario | src/churn.py:186-188 | a row with Geography_Germany = "DEU": intended encoding 0/1/0, as written the German flag is 0 |
| Churn.ModelMap | src/churn.py:207-218 | exactly "ann" and "random_forest" resolve; the first to a ".keras" artifact, the second to a ".pkl" one |
| Churn.ArtifactPath | src/churn.py:219-221 | the artifact path ends with the artifact's file name |
| Churn.SuffixesExclusive | src/churn.py:262-266 | no path ends in both ".keras" and ".pkl" |
| Churn.LoadModel | src/churn.py:258-266 | None when the path does not exist or has another suffix; otherwise a Keras model for ".keras" and an unpickled model for ".pkl", remembering the path |
| Churn.Entry | src/churn.py:249-252 | indexing the prediction succeeds iff both indexes are in range, giving that entry |
| Churn.PredictCustomerChurn | src/churn.py:244-255 | with a loaded model, ".keras" gives prediction[0][0] × 100 and ".pkl" gives prediction[0][1] × 100, raising IndexError when the prediction has no such entry; a None model raises AttributeError; another suffix raises UnboundLocalError |
| Churn.PercentageInRange | src/churn.py:254 | a prediction whose entries lie in [0, 1] gives a percentage in [0, 100] |
| Churn.PyIndex | src/churn.py:135-136 | `table_data[row]` succeeds iff -len ≤ row < len; a non-negative index gives `table[row]` and a negative one `table[len + row]` |
| Churn.Selected | src/churn.py:126 | the model dropdown is truthy iff it holds a non-empty string (None and "" are falsy) |
| Churn.RunModel | src/churn.py:207-241 | an unknown model id, or a missing artifact, raises AttributeError; success shows a prediction card with the "success" icon |
| Churn.CellSelect | src/churn.py:122-241 | no active cell: all outputs cleared; no model chosen: the "Please select a model" danger toast; a prediction card only for a chosen registered model whose artifact exists and a row that is present, complete and numeric |
| Churn.ParseUpload | src/churn.py:324-327 | the two-name unpack raises ValueError iff the data URL does not split into exactly two parts at commas; None iff it does but the header or the file name lacks "csv"; data is returned only when both contain "csv", and the payload is what follows the single comma |
| Churn.UploadFile | src/churn.py:299-321 | no contents shows nothing; otherwise ValueError iff the data URL does not split into two parts, AttributeError iff the gate returns None (reading `.to_dict` off None), and the uploaded table exactly when the gate returns data |
| Churn.UploadOutcome | src/churn.py:299-327 | an upload with one comma shows its payload when header and file name both contain "csv", and raises AttributeError otherwise |
| Churn.UploadGate | src/churn.py:324-327 | for a data URL with one comma, the payload is returned iff header and file name both contain "csv", and None otherwise |
| Churn.RenderContent | src/churn.py:333-338 | "/predict" gives the predict page, "/" the home page, anything else the 404 page |
| Churn.ActiveNavLink | src/churn.py:341-378 | the predict link is active iff the path is "/predict" |
| Churn.NavMatchesPage | src/churn.py:333-378 | the active link names the page shown, except that the 404 page keeps the home link active |
| Churn.IsoToCountry | src/churn.py:70-72 | only FRA, DEU and ESP resolve to a country |
| Churn.IsoLookupInvertsCountryCode | src/churn.py:70-75 | the ISO lookup gives a country exactly for that country's `get_country_code` |
| Churn.FirstRowOf | src/churn.py:77-78 | selecting the country and taking `.iloc[0]` succeeds iff the frame has a row for it, giving the first such row; on an empty frame (no "Country" column) it raises KeyError, otherwise IndexError |
| Churn.FindRow | src/churn.py:78 | `.iloc[0]` of the country's selection succeeds iff the frame has a row for it, giving the first such row; otherwise IndexError |
| Churn.DisplayCountryDetails | src/churn.py:66-80 | no click: the prompt; an unknown code: "not available"; a details table only for the clicked code's country and a row of the frame |
| Properties.ToBinaryIsStrict | src/churn.py:106-107 | integer 1, 1.0, True, "true", "01" and " 1" give 0; only "1" gives 1 |
| Properties.GeographyAsWrittenIsIgnored | src/churn.py:122-241 | with the geography encoding as written, clicking a complete row gives the same outcome as clicking any other complete row that agrees with it on the nine non-geography columns, whatever countries the two name |
| Properties.SameCellsSameEncoding | src/churn.py:174-205 | rows that agree on the nine non-geography columns encode to the same input frame (or raise the same error) |
| Properties.PresenceCheckCoversColumns | src/churn.py:137-165 | the presence check holds iff every one of the 12 model columns is present and non-None |
| Properties.MissingFieldsSkipsModel | src/churn.py:150-172 | a present row missing a field gives the "Missing Fields" outputs, independent of which artifacts exist and of what the models would predict |
| Properties.BadNumberRaises | src/churn.py:174-190 | a complete row with a non-numeric number cell raises ValueError, whatever the model id |
| Properties.UnknownModelRaises | src/churn.py:218-220 | an unregistered model id with a valid row raises AttributeError |
| Properties.MissingArtifactRaises | src/churn.py:221-223 | a registered model whose artifact is absent raises AttributeError |
| Properties.CompleteRowRunsModel | src/churn.py:135-223 | a complete numeric row reaches the model stage with its encoded vector |
| Properties.NetworkArtifact | src/churn.py:207-263 | "ann" resolves to a ".keras" path that loads as a Keras model |
| Properties.NeuralNetworkPrediction | src/churn.py:222-249 | "ann" with its artifact present reports prediction[0][0] × 100 under "Artifical Neural Network" |
| Properties.ForestArtifact | src/churn.py:207-266 | "random_forest" resolves to a ".pkl" path that loads by unpickling |
| Properties.RandomForestPrediction | src/churn.py:222-252 | "random_forest" with its artifact present reports prediction[0][1] × 100 under "Random Forest" |
| Properties.FirstRowIsSummary | src/churn.py:77-78 | in the summary frame, a country with customers is found and its row is its summary |
| Properties.DetailsOfCountry | src/churn.py:70-78 | clicking a country's code shows the row the frame lookup finds for that country, or raises the lookup's exception |
| Properties.DetailsFollowSummary | src/churn.py:70-78 | clicking a country's code shows its summary iff it has customers; without customers it raises IndexError, or KeyError when no country has any customer (the summary frame is then built from no rows and has no "Country" column, src/pages/page_home.py:45) |
| Properties.RatesAreFractions | src/pages/page_home.py:22-28 | every summary row's churn rate, and its active-member rate when that column is 0/1, lie in [0, 1] |

## Left out

- Text.ParseInt: models `int(str)` as an optional sign followed by ASCII digits. It leaves out the surrounding whitespace, the `_` digit separators and the non-ASCII digits that Python also accepts.
- Text.ParseReal: models `float(str)` as a sign, digits and at most one '.'. It leaves out exponents, "inf"/"nan", whitespace and `_`. Its value is the exact rational the literal spells, not the nearest IEEE double that Python returns (`float("0.1")` is exactly 1/10 here); the same holds for Text.DecimalValue, Text.NegativeDecimalValue and Text.UnsignedDecimalValue.
- Churn.PyFloat: a float is an exact real. `float` of a string is the exact decimal value, and `float` of an int never rounds, whereas Python rounds both to the nearest double.
- Churn.PredictCustomerChurn: the result is the exact `p * 100`. `round(..., 2)` and IEEE floating point are not modelled, so nothing is stated about the two decimals.
- Home.Mean: the mean is the exact quotient of the column sum by the record count, kept as a fraction; pandas' floating-point summation and division are not modelled.
- The reading of the dataset file at import time, and pandas' handling of missing dataset columns (KeyError) and NaN cells: I/O and library behaviour. Records are given as a sequence with integer flags.
- The scaler file, `StandardScaler.transform`, `models.load_model`, `joblib.load` and `predict`/`predict_proba`: opaque ML calls. They are folded into the `infer` parameter, and a load that fails on a corrupt or missing file is not modelled.
- `os.path.exists`, `os.path.join` and `os.path.dirname(__file__)`: file-system calls. Existence is the `existing` parameter, and the module directory is dropped from artifact paths ("models/<file>").
- base64 decoding and `pd.read_csv` in `parse_upload`: library calls. The gate returns the encoded payload. A None file name (a TypeError in Python) is not modelled.
- The card and table layout of `upload_file` (its payload stands for the table), `get_predict_input`, `update_map`, `create_choropleth_map`, the bar chart, the formatted metric table of `display_country_details` and all Dash/Bootstrap layout (including the predict page): presentation only. HTML output is replaced by small datatypes (`Outputs`, `Details`, `Page`, `NavLink`).
- `active_cell` and `clickData` are reduced to the row index and the clicked location. An empty-but-present dict, which Python treats as falsy, is not modelled.
- Callback wiring, server start-up and the module-global `user_df`: framework plumbing.

## Findings

| source | as written | input that shows it | evidently intended | confidence | as-written member | corrected member |
|---|---|---|---|---|---|---|
| src/churn.py:186-188 | `to_binary(country_france == "FRA")` passes the boolean of the comparison to `to_binary`, which answers 1 only for the string "1". All three geography features are therefore always 0. | a row whose `Geography_Germany` cell is "DEU" encodes Germany as 0 (`Churn.GermanRowScenario`). Formatting any vector with a country flag set and re-encoding it loses the flag (`Churn.AsWrittenRoundTrip`). | each geography feature is 1 exactly when its cell holds the country's code (FRA, DEU, ESP) | medium, not executed | Churn.EncodeFeatures | Churn.EncodeFeaturesIntended |

`Churn.EncodeFeaturesIntended` is proved to round-trip every formatted vector
(`Churn.IntendedRoundTrip`). `Churn.CellSelect` keeps the as-written encoder, so the
callback model predicts what the deployed code predicts.

=== FILE: churn.dfy ===
/** The prediction side of the dashboard (src/churn.py): how a selected table row becomes
    the 12-column model input, how the model id picks an artifact and how the artifact's
    file suffix picks the prediction API, plus the small routing and upload gates.
    Python exceptions that escape a callback are `Failure(e)`; Dash would report them
    as a callback error. */
module Churn {
  import opened Wrappers
  import opened Text
  import Home

  /** A table cell as the callback receives it from the browser (JSON): a string, a
      number, a boolean or null (Python None). */
  datatype Value = Str(s: string) | Int(i: int) | Real(r: real) | Bool(b: bool) | Null

  /** The Python exceptions that can escape the callbacks modelled here. */
  datatype Exception = ValueError | TypeError | AttributeError | IndexError | KeyError | UnboundLocalError

  /** `to_binary`: 1 exactly for the string "1". Python's `1 == "1"` and `True == "1"` are
      both false, so numbers and booleans always give 0. */
  function ToBinary(v: Value): (b: int)
    ensures b == 0 || b == 1
    ensures b == 1 <==> v == Str("1")
  {
    if v == Str("1") then 1 else 0
  }

  /** Python's `int(x)` on a float: truncation toward zero. */
  function Trunc(x: real): (t: int)
    ensures 0.0 <= x ==> t as real <= x < t as real + 1.0
    ensures x < 0.0 ==> t as real - 1.0 < x <= t as real
  {
    if x >= 0.0 then x.Floor else -((-x).Floor)
  }

  /** Python's `int(v)`: strings must spell an integer, None raises TypeError. */
  function PyInt(v: Value): (r: Result<int, Exception>)
    ensures r.Failure? ==> (r.error == TypeError <==> v.Null?)
    ensures r.Failure? ==> v.Null? || v.Str?
    ensures v.Int? ==> r == Success(v.i)
    ensures v.Real? ==> r == Success(Trunc(v.r))
    ensures v.Bool? ==> r == Success(if v.b then 1 else 0)
    ensures v.Str? ==> r == if ParseInt(v.s).Some? then Success(ParseInt(v.s).value) else Failure(ValueError)
  {
    match v
    case Str(s) => if ParseInt(s).Some? then Success(ParseInt(s).value) else Failure(ValueError)
    case Int(i) => Success(i)
    case Real(x) => Success(Trunc(x))
    case Bool(b) => Success(if b then 1 else 0)
    case Null => Failure(TypeError)
  }

  /** Python's `float(v)`: strings must spell a decimal number, None raises TypeError. */
  function PyFloat(v: Value): (r: Result<real, Exception>)
    ensures r.Failure? ==> (r.error == TypeError <==> v.Null?)
    ensures r.Failure? ==> v.Null? || v.Str?
    ensures v.Int? ==> r == Success(v.i as real)
    ensures v.Real? ==> r == Success(v.r)
    ensures v.Bool? ==> r == Success(if v.b then 1.0 else 0.0)
    ensures v.Str? ==> r == if ParseReal(v.s).Some? then Success(ParseReal(v.s).value) else Failure(ValueError)
  {
    match v
    case Str(s) => if ParseReal(s).Some? then Success(ParseReal(s).value) else Failure(ValueError)
    case Int(i) => Success(i as real)
    case Real(x) => Success(x)
    case Bool(b) => Success(if b then 1.0 else 0.0)
    case Null => Failure(TypeError)
  }

  /** `int` and `float` agree on every integer they accept. */
  lemma FloatAcceptsInts(v: Value)
    ensures PyInt(v).Success? && !v.Real? ==> PyFloat(v) == Success(PyInt(v).value as real)
  {
    if v.Str? {
      RealAgreesWithInt(v.s);
    }
  }

  /** A table row: column name to cell. */
  type Row = map<string, Value>

  /** `row_data.get(key, None)`: a missing column reads as None. */
  function Get(row: Row, key: string): (v: Value)
    ensures key !in row ==> v == Null
    ensures key in row ==> v == row[key]
  {
    if key in row then row[key] else Null
  }

  /** The twelve columns the callback reads, in the order of the model's input frame. */
  const RequiredFields: seq<string> := [
    "CreditScore", "Gender", "Age", "Tenure", "Balance", "NumOfProducts",
    "HasCrCard", "IsActiveMember", "EstimatedSalary",
    "Geography_France", "Geography_Germany", "Geography_Spain"]

  /** The presence check of `cell_select`: every required column holds a non-None value. */
  predicate HasAllFields(row: Row)
    ensures HasAllFields(row) ==> forall i | 0 <= i < |RequiredFields| :: RequiredFields[i] in row
  {
    && Get(row, "CreditScore") != Null
    && Get(row, "Gender") != Null
    && Get(row, "Age") != Null
    && Get(row, "Tenure") != Null
    && Get(row, "Balance") != Null
    && Get(row, "NumOfProducts") != Null
    && Get(row, "HasCrCard") != Null
    && Get(row, "IsActiveMember") != Null
    && Get(row, "EstimatedSalary") != Null
    && Get(row, "Geography_France") != Null
    && Get(row, "Geography_Germany") != Null
    && Get(row, "Geography_Spain") != Null
  }

  /** The one-row input frame handed to the model. */
  datatype FeatureVector = FeatureVector(
    creditScore: int,
    gender: int,
    age: int,
    tenure: int,
    balance: real,
    numOfProducts: int,
    hasCrCard: int,
    isActiveMember: real,
    estimatedSalary: int,
    geographyFrance: int,
    geographyGermany: int,
    geographySpain: int)

  /** The frame's value in the column called `name`. */
  function Column(v: FeatureVector, name: string): real
    requires name in RequiredFields
  {
    match name
    case "CreditScore" => v.creditScore as real
    case "Gender" => v.gender as real
    case "Age" => v.age as real
    case "Tenure" => v.tenure as real
    case "Balance" => v.balance
    case "NumOfProducts" => v.numOfProducts as real
    case "HasCrCard" => v.hasCrCard as real
    case "IsActiveMember" => v.isActiveMember
    case "EstimatedSalary" => v.estimatedSalary as real
    case "Geography_France" => v.geographyFrance as real
    case "Geography_Germany" => v.geographyGermany as real
    case _ => v.geographySpain as real
  }

  /** The frame's row as the model sees it: twelve numbers, position i under column
      `RequiredFields[i]`. */
  function Columns(v: FeatureVector): (cols: seq<real>)
    ensures |cols| == |RequiredFields| == 12
    ensures forall i | 0 <= i < |cols| :: cols[i] == Column(v, RequiredFields[i])
  {
    [v.creditScore as real, v.gender as real, v.age as real, v.tenure as real, v.balance,
     v.numOfProducts as real, v.hasCrCard as real, v.isActiveMember, v.estimatedSalary as real,
     v.geographyFrance as real, v.geographyGermany as real, v.geographySpain as real]
  }

  /** The geography flag as written: `to_binary(cell == "FRA")` hands a boolean to
      `to_binary`, which only answers 1 for the string "1". */
  function GeoAsWritten(cell: Value, code: string): (g: int)
    ensures g == 0
  {
    ToBinary(Bool(cell == Str(code)))
  }

  /** The geography flag as evidently intended: 1 exactly when the cell holds the code. */
  function GeoIntended(cell: Value, code: string): int {
    if cell == Str(code) then 1 else 0
  }

  /** The list literal of `cell_select`, evaluated left to right: the first `int`/`float`
      that fails raises. `geo` is the rule for the three geography columns. */
  function EncodeWith(row: Row, geo: (Value, string) -> int): (r: Result<FeatureVector, Exception>)
    ensures r.Success? <==> NumbersParse(row)
    ensures r.Success? ==> EncodesCells(r.value, row)
    ensures r.Success? ==>
      && r.value.geographyFrance == geo(Get(row, "Geography_France"), "FRA")
      && r.value.geographyGermany == geo(Get(row, "Geography_Germany"), "DEU")
      && r.value.geographySpain == geo(Get(row, "Geography_Spain"), "ESP")
    ensures HasAllFields(row) && r.Failure? ==> r.error == ValueError
  {
    var credit :- PyInt(Get(row, "CreditScore"));
    var age :- PyInt(Get(row, "Age"));
    var tenure :- PyInt(Get(row, "Tenure"));
    var balance :- PyFloat(Get(row, "Balance"));
    var products :- PyInt(Get(row, "NumOfProducts"));
    var active :- PyFloat(Get(row, "IsActiveMember"));
    var salary :- PyInt(Get(row, "EstimatedSalary"));
    Success(FeatureVector(
      credit,
      ToBinary(Get(row, "Gender")),
      age,
      tenure,
      balance,
      products,
      ToBinary(Get(row, "HasCrCard")),
      active,
      salary,
      geo(Get(row, "Geography_France"), "FRA"),
      geo(Get(row, "Geography_Germany"), "DEU"),
      geo(Get(row, "Geography_Spain"), "ESP")))
  }

  /** The numeric columns all convert. */
  predicate NumbersParse(row: Row) {
    && PyInt(Get(row, "CreditScore")).Success?
    && PyInt(Get(row, "Age")).Success?
    && PyInt(Get(row, "Tenure")).Success?
    && PyFloat(Get(row, "Balance")).Success?
    && PyInt(Get(row, "NumOfProducts")).Success?
    && PyFloat(Get(row, "IsActiveMember")).Success?
    && PyInt(Get(row, "EstimatedSalary")).Success?
  }

  /** The vector's non-geography entries are the conversions of the row's cells. */
  predicate EncodesCells(v: FeatureVector, row: Row)
    requires NumbersParse(row)
  {
    && v.creditScore == PyInt(Get(row, "CreditScore")).value
    && (v.gender == 1 <==> Get(row, "Gender") == Str("1")) && v.gender in {0, 1}
    && v.age == PyInt(Get(row, "Age")).value
    && v.tenure == PyInt(Get(row, "Tenure")).value
    && v.balance == PyFloat(Get(row, "Balance")).value
    && v.numOfProducts == PyInt(Get(row, "NumOfProducts")).value
    && (v.hasCrCard == 1 <==> Get(row, "HasCrCard") == Str("1")) && v.hasCrCard in {0, 1}
    && v.isActiveMember == PyFloat(Get(row, "IsActiveMember")).value
    && v.estimatedSalary == PyInt(Get(row, "EstimatedSalary")).value
  }

  /** The encoding of `cell_select` as written: the geography entries are always 0. */
  function EncodeFeatures(row: Row): (r: Result<FeatureVector, Exception>)
    ensures r.Success? <==> NumbersParse(row)
    ensures r.Success? ==> EncodesCells(r.value, row)
    ensures r.Success? ==>
      r.value.geographyFrance == 0 && r.value.geographyGermany == 0 && r.value.geographySpain == 0
    ensures HasAllFields(row) && r.Failure? ==> r.error == ValueError
  {
    EncodeWith(row, GeoAsWritten)
  }

  /** The encoding with the geography flags as evidently intended. */
  function EncodeFeaturesIntended(row: Row): (r: Result<FeatureVector, Exception>)
    ensures r.Success? <==> NumbersParse(row)
    ensures r.Success? ==> EncodesCells(r.value, row)
    ensures r.Success? ==>
      && (r.value.geographyFrance == 1 <==> Get(row, "Geography_France") == Str("FRA"))
      && (r.value.geographyGermany == 1 <==> Get(row, "Geography_Germany") == Str("DEU"))
      && (r.value.geographySpain == 1 <==> Get(row, "Geography_Spain") == Str("ESP"))
    ensures HasAllFields(row) && r.Failure? ==> r.error == ValueError
  {
    EncodeWith(row, GeoIntended)
  }

  /** The 0/1 entries of a vector really are 0 or 1. */
  predicate BinaryFlags(v: FeatureVector) {
    && v.gender in {0, 1} && v.hasCrCard in {0, 1}
    && v.geographyFrance in {0, 1} && v.geographyGermany in {0, 1} && v.geographySpain in {0, 1}
  }

  function Token(flag: int, one: string, zero: string): string {
    if flag == 1 then one else zero
  }

  /** The table row a vector would appear as: integers spelled in decimal, 0/1 flags as
      "1"/"0", geography as its country code or "", and the two float columns as numbers. */
  function FormatRow(v: FeatureVector): Row {
    map[
      "CreditScore" := Str(IntToString(v.creditScore)),
      "Gender" := Str(Token(v.gender, "1", "0")),
      "Age" := Str(IntToString(v.age)),
      "Tenure" := Str(IntToString(v.tenure)),
      "Balance" := Real(v.balance),
      "NumOfProducts" := Str(IntToString(v.numOfProducts)),
      "HasCrCard" := Str(Token(v.hasCrCard, "1", "0")),
      "IsActiveMember" := Real(v.isActiveMember),
      "EstimatedSalary" := Str(IntToString(v.estimatedSalary)),
      "Geography_France" := Str(Token(v.geographyFrance, "FRA", "")),
      "Geography_Germany" := Str(Token(v.geographyGermany, "DEU", "")),
      "Geography_Spain" := Str(Token(v.geographySpain, "ESP", ""))]
  }

  /** `int(str(i)) == i` on cells. */
  lemma PyIntRoundTrip(i: int)
    ensures PyInt(Str(IntToString(i))) == Success(i)
  {
    IntRoundTrip(i);
  }

  // FormatRowCells is proved in three parts only to keep each proof small: every lookup in
  // the twelve-entry map literal has to tell its key apart from the keys written after it.

  /** The first three cells of a formatted row. */
  lemma FormatRowLeading(v: FeatureVector)
    ensures var row := FormatRow(v);
      && Get(row, "CreditScore") == Str(IntToString(v.creditScore))
      && Get(row, "Gender") == Str(Token(v.gender, "1", "0"))
      && Get(row, "Age") == Str(IntToString(v.age))
  {
  }

  /** The fourth to sixth cells of a formatted row. */
  lemma FormatRowMiddle(v: FeatureVector)
    ensures var row := FormatRow(v);
      && Get(row, "Tenure") == Str(IntToString(v.tenure))
      && Get(row, "Balance") == Real(v.balance)
      && Get(row, "NumOfProducts") == Str(IntToString(v.numOfProducts))
  {
  }

  /** The last six cells of a formatted row. */
  lemma FormatRowTrailing(v: FeatureVector)
    ensures var row := FormatRow(v);
      && Get(row, "HasCrCard") == Str(Token(v.hasCrCard, "1", "0"))
      && Get(row, "IsActiveMember") == Real(v.isActiveMember)
      && Get(row, "EstimatedSalary") == Str(IntToString(v.estimatedSalary))
      && Get(row, "Geography_France") == Str(Token(v.geographyFrance, "FRA", ""))
      && Get(row, "Geography_Germany") == Str(Token(v.geographyGermany, "DEU", ""))
      && Get(row, "Geography_Spain") == Str(Token(v.geographySpain, "ESP", ""))
  {
  }

  /** The cells of a formatted row. */
  lemma FormatRowCells(v: FeatureVector)
    ensures var row := FormatRow(v);
      && Get(row, "CreditScore") == Str(IntToString(v.creditScore))
      && Get(row, "Gender") == Str(Token(v.gender, "1", "0"))
      && Get(row, "Age") == Str(IntToString(v.age))
      && Get(row, "Tenure") == Str(IntToString(v.tenure))
      && Get(row, "Balance") == Real(v.balance)
      && Get(row, "NumOfProducts") == Str(IntToString(v.numOfProducts))
      && Get(row, "HasCrCard") == Str(Token(v.hasCrCard, "1", "0"))
      && Get(row, "IsActiveMember") == Real(v.isActiveMember)
      && Get(row, "EstimatedSalary") == Str(IntToString(v.estimatedSalary))
      && Get(row, "Geography_France") == Str(Token(v.geographyFrance, "FRA", ""))
      && Get(row, "Geography_Germany") == Str(Token(v.geographyGermany, "DEU", ""))
      && Get(row, "Geography_Spain") == Str(Token(v.geographySpain, "ESP", ""))
  {
    FormatRowLeading(v);
    FormatRowMiddle(v);
    FormatRowTrailing(v);
  }

  /** Formatting a vector as a row and encoding it again gives the vector back. */
  lemma IntendedRoundTrip(v: FeatureVector)
    requires BinaryFlags(v)
    ensures EncodeFeaturesIntended(FormatRow(v)) == Success(v)
  {
    FormatRowCells(v);
    PyIntRoundTrip(v.creditScore);
    PyIntRoundTrip(v.age);
    PyIntRoundTrip(v.tenure);
    PyIntRoundTrip(v.numOfProducts);
    PyIntRoundTrip(v.estimatedSalary);
  }

  /** As written, the round trip holds exactly for the vectors with no country set. */
  lemma AsWrittenRoundTrip(v: FeatureVector)
    requires BinaryFlags(v)
    ensures EncodeFeatures(FormatRow(v)) == Success(v) <==>
      v.geographyFrance == 0 && v.geographyGermany == 0 && v.geographySpain == 0
  {
    IntendedRoundTrip(v);
  }

  /** A German customer: the intended encoding sets the German flag, the code as written
      drops it. */
  lemma GermanRowScenario()
    ensures var row := map[
        "CreditScore" := Int(600), "Gender" := Str("1"), "Age" := Int(40), "Tenure" := Int(3),
        "Balance" := Real(0.0), "NumOfProducts" := Int(2), "HasCrCard" := Str("1"),
        "IsActiveMember" := Real(1.0), "EstimatedSalary" := Int(50000),
        "Geography_France" := Str(""), "Geography_Germany" := Str("DEU"), "Geography_Spain" := Str("")];
      && EncodeFeaturesIntended(row).Success?
      && EncodeFeaturesIntended(row).value.geographyGermany == 1
      && EncodeFeaturesIntended(row).value.geographyFrance == 0
      && EncodeFeaturesIntended(row).value.geographySpain == 0
      && EncodeFeatures(row).Success?
      && EncodeFeatures(row).value.geographyGermany == 0
  {
  }

  /** An entry of `model_map`. */
  datatype ModelEntry = ModelEntry(name: string, modelPath: string)

  /** `model_map.get(model_select)`. The "Artifical" spelling is the source's. */
  function ModelMap(id: string): (e: Option<ModelEntry>)
    ensures e.Some? <==> id == "ann" || id == "random_forest"
    ensures e.Some? ==> (EndsWith(e.value.modelPath, ".keras") <==> id == "ann")
    ensures e.Some? ==> (EndsWith(e.value.modelPath, ".pkl") <==> id == "random_forest")
  {
    if id == "ann" then Some(ModelEntry("Artifical Neural Network", "ann.keras"))
    else if id == "random_forest" then Some(ModelEntry("Random Forest", "random_forest.pkl"))
    else None
  }

  /** `os.path.join(os.path.dirname(__file__), "models", file)`, relative to the module. */
  function ArtifactPath(file: string): (path: string)
    ensures EndsWith(path, file)
  {
    var path := "models/" + file;
    assert path[|path| - |file|..] == file;
    path
  }

  /** No path ends in both ".keras" and ".pkl". */
  lemma SuffixesExclusive(path: string)
    ensures !(EndsWith(path, ".keras") && EndsWith(path, ".pkl"))
  {
    EndsWithLast(path, ".keras");
    EndsWithLast(path, ".pkl");
  }

  /** What `load_model` returns: a Keras network or an unpickled estimator, each
      remembered with the path it was read from. */
  datatype LoadedModel = KerasModel(path: string) | PickledModel(path: string)

  /** `load_model`: None when the file is absent, then dispatch on the suffix; any other
      suffix falls off the end of the function, returning None. `existing` is the set of
      paths for which `os.path.exists` holds. */
  function LoadModel(path: string, existing: set<string>): (m: Option<LoadedModel>)
    ensures m.Some? ==> path in existing && m.value.path == path
    ensures m.Some? && m.value.KerasModel? <==> path in existing && EndsWith(path, ".keras")
    ensures m.Some? && m.value.PickledModel? <==> path in existing && EndsWith(path, ".pkl")
    ensures path in existing ==> (m.None? <==> !EndsWith(path, ".keras") && !EndsWith(path, ".pkl"))
  {
    SuffixesExclusive(path);
    if path !in existing then None
    else if EndsWith(path, ".keras") then Some(KerasModel(path))
    else if EndsWith(path, ".pkl") then Some(PickledModel(path))
    else None
  }

  /** What `model.predict` / `model.predict_proba` return for the one-row frame: a matrix. */
  type Prediction = seq<seq<real>>

  /** `prediction[i][j]`, raising IndexError when out of range. */
  function Entry(p: Prediction, i: nat, j: nat): (r: Result<real, Exception>)
    ensures r.Success? <==> i < |p| && j < |p[i]|
    ensures r.Success? ==> r.value == p[i][j]
  {
    if i < |p| && j < |p[i]| then Success(p[i][j]) else Failure(IndexError)
  }

  /** `predict_customer_churn`: a ".keras" path reads the network's single output [0][0]
      (after the scaler, folded into `infer`), a ".pkl" path reads the churn class
      probability [0][1]; the result is a percentage. A None model raises AttributeError;
      any other suffix leaves `prediction_value` unbound. */
  function PredictCustomerChurn(model: Option<LoadedModel>, path: string, input: FeatureVector,
                                infer: (LoadedModel, FeatureVector) -> Prediction): (r: Result<real, Exception>)
    ensures r.Success? ==> model.Some? && (EndsWith(path, ".keras") || EndsWith(path, ".pkl"))
    ensures r.Success? && EndsWith(path, ".keras") ==>
      var p := infer(model.value, input); |p| > 0 && |p[0]| > 0 && r.value == p[0][0] * 100.0
    ensures r.Success? && !EndsWith(path, ".keras") ==>
      var p := infer(model.value, input); |p| > 0 && |p[0]| > 1 && r.value == p[0][1] * 100.0
    ensures !EndsWith(path, ".keras") && !EndsWith(path, ".pkl") ==> r == Failure(UnboundLocalError)
    ensures (EndsWith(path, ".keras") || EndsWith(path, ".pkl")) && model.None? ==> r == Failure(AttributeError)
    ensures model.Some? && EndsWith(path, ".keras") ==>
      var p := infer(model.value, input);
      r == if |p| > 0 && |p[0]| > 0 then Success(p[0][0] * 100.0) else Failure(IndexError)
    ensures model.Some? && EndsWith(path, ".pkl") && !EndsWith(path, ".keras") ==>
      var p := infer(model.value, input);
      r == if |p| > 0 && |p[0]| > 1 then Success(p[0][1] * 100.0) else Failure(IndexError)
  {
    if EndsWith(path, ".keras") then
      if model.None? then Failure(AttributeError)
      else
        var p :- Entry(infer(model.value, input), 0, 0);
        Success(p * 100.0)
    else if EndsWith(path, ".pkl") then
      if model.None? then Failure(AttributeError)
      else
        var p :- Entry(infer(model.value, input), 0, 1);
        Success(p * 100.0)
    else Failure(UnboundLocalError)
  }

  /** A probability in [0, 1] becomes a percentage in [0, 100]. */
  lemma PercentageInRange(model: Option<LoadedModel>, path: string, input: FeatureVector,
                          infer: (LoadedModel, FeatureVector) -> Prediction)
    requires model.Some?
    requires forall i, j | 0 <= i < |infer(model.value, input)| && 0 <= j < |infer(model.value, input)[i]| ::
      0.0 <= infer(model.value, input)[i][j] <= 1.0
    ensures PredictCustomerChurn(model, path, input, infer).Success? ==>
      0.0 <= PredictCustomerChurn(model, path, input, infer).value <= 100.0
  {
  }

  /** The cell the user clicked (`active_cell`); only its row index is used. */
  datatype ActiveCell = ActiveCell(row: int)

  /** What the card area of the predict page shows. */
  datatype Content = NoContent | MissingFieldsText | PredictionCard(probability: real)

  /** The five outputs of `cell_select`: card content, toast open, header, body and icon. */
  datatype Outputs = Outputs(content: Content, toastOpen: bool, header: Option<string>,
                             message: Option<string>, icon: Option<string>)

  const Cleared := Outputs(NoContent, false, None, None, None)
  const SelectModelToast := Outputs(NoContent, true, Some("Model Selection"), Some("Please select a model"), Some("danger"))
  const MissingFieldsToast := Outputs(MissingFieldsText, true, Some("Missing Fields"),
                                      Some("Selected row is missing required fields."), Some("danger"))

  function SuccessOutputs(name: string, probability: real): Outputs {
    Outputs(PredictionCard(probability), true, Some(name),
            Some("Customer churn prediction successfully completed with " + name + " model."), Some("success"))
  }

  /** Python truthiness of the dropdown value: None and "" are falsy. */
  predicate Selected(modelSelect: Option<string>)
    ensures Selected(modelSelect) <==> modelSelect.Some? && |modelSelect.value| > 0
  {
    modelSelect.Some? && modelSelect.value != ""
  }

  /** Python's `table[i]`: negative indexes count from the end. */
  function PyIndex(table: seq<Row>, i: int): (r: Result<Row, Exception>)
    ensures r.Success? <==> -|table| <= i < |table|
    ensures r.Success? ==> r.value in table
    ensures 0 <= i < |table| ==> r == Success(table[i])
    ensures -|table| <= i < 0 ==> r == Success(table[|table| + i])
  {
    if 0 <= i < |table| then Success(table[i])
    else if -|table| <= i < 0 then Success(table[|table| + i])
    else Failure(IndexError)
  }

  /** The model stage of `cell_select`, after the row is encoded: resolve the id, load the
      artifact and predict. An unknown id leaves `selected_model` None, whose `.get` raises. */
  function RunModel(id: string, v: FeatureVector, existing: set<string>,
                    infer: (LoadedModel, FeatureVector) -> Prediction): (r: Result<Outputs, Exception>)
    ensures ModelMap(id).None? ==> r == Failure(AttributeError)
    ensures ModelMap(id).Some? && ArtifactPath(ModelMap(id).value.modelPath) !in existing ==> r == Failure(AttributeError)
    ensures r.Success? ==> r.value.content.PredictionCard? && r.value.icon == Some("success")
  {
    match ModelMap(id)
    case None => Failure(AttributeError)
    case Some(entry) =>
      var path := ArtifactPath(entry.modelPath);
      var model := LoadModel(path, existing);
      var p :- PredictCustomerChurn(model, path, v, infer);
      Success(SuccessOutputs(entry.name, p))
  }

  /** `cell_select`: the callback fired by clicking a cell of the uploaded table. */
  function CellSelect(activeCell: Option<ActiveCell>, modelSelect: Option<string>, table: seq<Row>,
                      existing: set<string>, infer: (LoadedModel, FeatureVector) -> Prediction)
    : (r: Result<Outputs, Exception>)
    ensures activeCell.None? ==> r == Success(Cleared)
    ensures activeCell.Some? && !Selected(modelSelect) ==> r == Success(SelectModelToast)
    ensures r.Success? && r.value.content.PredictionCard? ==>
      && activeCell.Some? && Selected(modelSelect)
      && ModelMap(modelSelect.value).Some?
      && ArtifactPath(ModelMap(modelSelect.value).value.modelPath) in existing
      && PyIndex(table, activeCell.value.row).Success?
      && HasAllFields(PyIndex(table, activeCell.value.row).value)
      && NumbersParse(PyIndex(table, activeCell.value.row).value)
  {
    if activeCell.None? then Success(Cleared)
    else if !Selected(modelSelect) then Success(SelectModelToast)
    else
      var row :- PyIndex(table, activeCell.value.row);
      if !HasAllFields(row) then Success(MissingFieldsToast)
      else
        var v :- EncodeFeatures(row);
        RunModel(modelSelect.value, v, existing, infer)
  }

  /** `parse_upload`'s gate: the upload's data URL is split at its comma (exactly one is
      required to unpack), and nothing is parsed unless both the content-type part and the
      file name mention "csv". On success the result is the base64 payload that pandas
      would read after decoding. */
  function ParseUpload(contents: string, filename: string): (r: Result<Option<string>, Exception>)
    ensures r == Failure(ValueError) <==> |Split(contents, ',')| != 2
    ensures r == Success(None) <==>
      |Split(contents, ',')| == 2 && !(Contains(Split(contents, ',')[0], "csv") && Contains(filename, "csv"))
    ensures r.Success? && r.value.Some? ==>
      && Contains(filename, "csv")
      && |r.value.value| < |contents|
      && ',' !in r.value.value
      && var header := contents[..|contents| - |r.value.value| - 1];
        contents == header + "," + r.value.value && Contains(header, "csv") && ',' !in header
  {
    var parts := Split(contents, ',');
    if |parts| != 2 then Failure(ValueError)
    else if !Contains(parts[0], "csv") || !Contains(filename, "csv") then Success(None)
    else
      JoinSplit(contents, ',');
      assert Join(parts[1..], ',') == parts[1];
      Success(Some(parts[1]))
  }

  /** A data URL with one comma is accepted exactly when both its header and the file
      name mention "csv". */
  lemma UploadGate(header: string, payload: string, filename: string)
    requires ',' !in header && ',' !in payload
    ensures ParseUpload(header + "," + payload, filename)
      == Success(if Contains(header, "csv") && Contains(filename, "csv") then Some(payload) else None)
  {
    SplitJoin([header, payload], ',');
    assert Join([payload], ',') == payload;
  }

  /** `upload_file`: no upload (None or empty contents) shows nothing. Otherwise the gate's
      result is shown as a table; reading the table off the None a rejected upload gives
      raises AttributeError, and the gate's own ValueError escapes as well. `Some(payload)`
      stands for the card with the uploaded table. */
  function UploadFile(contents: Option<string>, filename: string): (r: Result<Option<string>, Exception>)
    ensures contents.None? || contents == Some("") ==> r == Success(None)
    ensures contents.Some? && contents.value != "" ==>
      && (r == Failure(ValueError) <==> |Split(contents.value, ',')| != 2)
      && (r == Failure(AttributeError) <==> ParseUpload(contents.value, filename) == Success(None))
      && (r.Success? <==> ParseUpload(contents.value, filename).Success? && ParseUpload(contents.value, filename).value.Some?)
      && (r.Success? ==> r == ParseUpload(contents.value, filename))
  {
    if contents.None? || contents.value == "" then Success(None)
    else
      var parsed :- ParseUpload(contents.value, filename);
      if parsed.None? then Failure(AttributeError) else Success(parsed)
  }

  /** An upload with one comma in its data URL shows its payload when header and file
      name both mention "csv", and raises AttributeError otherwise. */
  lemma UploadOutcome(header: string, payload: string, filename: string)
    requires ',' !in header && ',' !in payload
    ensures UploadFile(Some(header + "," + payload), filename)
      == if Contains(header, "csv") && Contains(filename, "csv") then Success(Some(payload))
         else Failure(AttributeError)
  {
    UploadGate(header, payload, filename);
  }

  /** Pages `render_content` can show. */
  datatype Page = PredictPage | HomePage | NotFoundPage

  /** `render_content`: "/predict", "/" and everything else (None included). */
  function RenderContent(pathname: Option<string>): (page: Page)
    ensures page == PredictPage <==> pathname == Some("/predict")
    ensures page == HomePage <==> pathname == Some("/")
  {
    if pathname == Some("/predict") then PredictPage
    else if pathname == Some("/") then HomePage
    else NotFoundPage
  }

  /** The two navigation links. */
  datatype NavLink = HomeLink | PredictLink

  /** `get_nav_items`: which of the two links is marked active. */
  function ActiveNavLink(pathname: Option<string>): (link: NavLink)
    ensures link == PredictLink <==> pathname == Some("/predict")
  {
    if pathname == Some("/predict") then PredictLink else HomeLink
  }

  /** The active link names the page on screen, except on the 404 page, where the home
      link stays highlighted. */
  lemma NavMatchesPage(pathname: Option<string>)
    ensures RenderContent(pathname) == PredictPage <==> ActiveNavLink(pathname) == PredictLink
    ensures RenderContent(pathname) == NotFoundPage ==> ActiveNavLink(pathname) == HomeLink
  {
  }

  /** The `iso_to_country` lookup of `display_country_details`. */
  function IsoToCountry(iso: string): (c: Option<Home.Country>)
    ensures c.Some? <==> iso in {"FRA", "DEU", "ESP"}
  {
    if iso == "FRA" then Some(Home.France)
    else if iso == "DEU" then Some(Home.Germany)
    else if iso == "ESP" then Some(Home.Spain)
    else None
  }

  /** The ISO lookup undoes `get_country_code` and nothing else. */
  lemma IsoLookupInvertsCountryCode(iso: string, c: Home.Country)
    ensures IsoToCountry(iso) == Some(c) <==> iso == Home.GetCountryCode(Home.Name(c))
  {
  }

  /** What the country-details card shows. */
  datatype Details = ClickPrompt | NotAvailable | CountryTable(row: Home.GeoRow)

  /** `.iloc[0]` of the rows of one country: IndexError when there is none. */
  function FindRow(frame: seq<Home.GeoRow>, c: Home.Country): (r: Result<Home.GeoRow, Exception>)
    ensures r.Success? <==> Home.HasRowFor(frame, c)
    ensures r.Success? ==> r.value in frame && r.value.country == c
    ensures r.Success? ==> exists k | 0 <= k < |frame| :: frame[k] == r.value && forall j | 0 <= j < k :: frame[j].country != c
    ensures r.Failure? ==> r.error == IndexError
    decreases |frame|
  {
    if |frame| == 0 then Failure(IndexError)
    else if frame[0].country == c then Success(frame[0])
    else
      var r := FindRow(frame[1..], c);
      assert r.Success? ==> exists k | 0 <= k < |frame| :: frame[k] == r.value && forall j | 0 <= j < k :: frame[j].country != c by {
        if r.Success? {
          var k :| 0 <= k < |frame[1..]| && frame[1..][k] == r.value && forall j | 0 <= j < k :: frame[1..][j].country != c;
          assert frame[k + 1] == r.value;
          forall j | 0 <= j < k + 1
            ensures frame[j].country != c
          {
            if j > 0 { assert frame[j] == frame[1..][j - 1]; }
          }
        }
      }
      assert Home.HasRowFor(frame, c) ==> Home.HasRowFor(frame[1..], c) by {
        if Home.HasRowFor(frame, c) {
          var i :| 0 <= i < |frame| && frame[i].country == c;
          assert frame[1..][i - 1].country == c;
        }
      }
      assert Home.HasRowFor(frame[1..], c) ==> Home.HasRowFor(frame, c) by {
        if Home.HasRowFor(frame[1..], c) {
          var i :| 0 <= i < |frame[1..]| && frame[1..][i].country == c;
          assert frame[i + 1].country == c;
        }
      }
      r
  }

  /** `geo_churn_df[geo_churn_df["Country"] == country].iloc[0]`. A summary frame built
      from no rows at all has no "Country" column, so selecting it raises KeyError before
      `.iloc[0]` is reached. */
  function FirstRowOf(frame: seq<Home.GeoRow>, c: Home.Country): (r: Result<Home.GeoRow, Exception>)
    ensures r.Success? <==> Home.HasRowFor(frame, c)
    ensures r.Success? ==> r.value in frame && r.value.country == c
    ensures r.Success? ==> exists k | 0 <= k < |frame| :: frame[k] == r.value && forall j | 0 <= j < k :: frame[j].country != c
    ensures r.Failure? ==> r.error == if |frame| == 0 then KeyError else IndexError
  {
    if |frame| == 0 then Failure(KeyError) else FindRow(frame, c)
  }

  /** `display_country_details`: `location` is the ISO code of the clicked map point, None
      when nothing was clicked. */
  function DisplayCountryDetails(location: Option<string>, frame: seq<Home.GeoRow>): (r: Result<Details, Exception>)
    ensures location.None? ==> r == Success(ClickPrompt)
    ensures location.Some? && IsoToCountry(location.value).None? ==> r == Success(NotAvailable)
    ensures r.Success? && r.value.CountryTable? ==>
      location.Some? && IsoToCountry(location.value) == Some(r.value.row.country) && r.value.row in frame
  {
    if location.None? then Success(ClickPrompt)
    else match IsoToCountry(location.value)
      case None => Success(NotAvailable)
      case Some(c) =>
        var row :- FirstRowOf(frame, c);
        Success(CountryTable(row))
  }
}

=== FILE: home.dfy ===
/** The per-country churn summary behind the home page's map and bar chart
    (`get_country_code` and `get_geo_churn_data` in src/pages/page_home.py).
    A historical customer record carries three one-hot geography columns; the
    summary walks France, Germany and Spain in that order, keeps the rows whose
    flag for the country is 1, and emits one row of statistics per country that
    has at least one customer. */
module Home {

  datatype Country = France | Germany | Spain

  /** The loop order of `get_geo_churn_data`. */
  const Countries: seq<Country> := [France, Germany, Spain]

  /** The country's name, as it appears in the `Geography_<name>` column and the `Country` field. */
  function Name(c: Country): string {
    match c
    case France => "France"
    case Germany => "Germany"
    case Spain => "Spain"
  }

  /** Position of a country in the loop order. */
  function Rank(c: Country): (k: nat)
    ensures k < |Countries| && Countries[k] == c
  {
    match c
    case France => 0
    case Germany => 1
    case Spain => 2
  }

  /** The ISO 3166 alpha-3 code used to place a country on the map; "" for any other name. */
  function GetCountryCode(name: string): (code: string)
    ensures code == "FRA" <==> name == "France"
    ensures code == "DEU" <==> name == "Germany"
    ensures code == "ESP" <==> name == "Spain"
    ensures code == "" <==> name !in {"France", "Germany", "Spain"}
  {
    if name == "France" then "FRA"
    else if name == "Germany" then "DEU"
    else if name == "Spain" then "ESP"
    else ""
  }

  /** One row of the historical dataset, restricted to the columns the summary reads. */
  datatype Record = Record(
    creditScore: int,
    age: int,
    tenure: int,
    balance: real,
    isActiveMember: int,
    exited: int,
    geographyFrance: int,
    geographyGermany: int,
    geographySpain: int)

  /** The record's `Geography_<country>` column. */
  function Flag(r: Record, c: Country): int {
    match c
    case France => r.geographyFrance
    case Germany => r.geographyGermany
    case Spain => r.geographySpain
  }

  /** `dataframe[dataframe["Geography_<country>"] == 1]`: the records of one country, in input order. */
  function Matching(rs: seq<Record>, c: Country): (m: seq<Record>)
    ensures |m| <= |rs|
    ensures forall i | 0 <= i < |m| :: Flag(m[i], c) == 1
    decreases |rs|
  {
    if |rs| == 0 then []
    else (if Flag(rs[0], c) == 1 then [rs[0]] else []) + Matching(rs[1..], c)
  }

  /** The filter keeps every record of the country, as often as it occurs, and nothing else. */
  lemma {:induction false} MatchingSelects(rs: seq<Record>, c: Country, r: Record)
    ensures multiset(Matching(rs, c))[r] == if Flag(r, c) == 1 then multiset(rs)[r] else 0
    decreases |rs|
  {
    if |rs| > 0 {
      MatchingSelects(rs[1..], c, r);
      assert rs == [rs[0]] + rs[1..];
    }
  }

  /** `len(country_df[country_df["Exited"] == 1])`. */
  function CountExited(rs: seq<Record>): (n: nat)
    ensures n <= |rs|
    ensures n == |rs| <==> forall i | 0 <= i < |rs| :: rs[i].exited == 1
    ensures n == 0 <==> forall i | 0 <= i < |rs| :: rs[i].exited != 1
    ensures |rs| == 1 ==> (n == 1 <==> rs[0].exited == 1)
    decreases |rs|
  {
    if |rs| == 0 then 0
    else (if rs[0].exited == 1 then 1 else 0) + CountExited(rs[1..])
  }

  /** The churned count is additive over concatenation; with the one-record value above
      this fixes it on every frame: the number of records with Exited == 1. */
  lemma {:induction false} CountExitedAppend(a: seq<Record>, b: seq<Record>)
    ensures CountExited(a + b) == CountExited(a) + CountExited(b)
    decreases |a|
  {
    if |a| == 0 {
      assert a + b == b;
    } else {
      assert (a + b)[0] == a[0] && (a + b)[1..] == a[1..] + b;
      CountExitedAppend(a[1..], b);
    }
  }

  /** Sum of one column over the records. */
  function Sum(rs: seq<Record>, column: Record -> real): (s: real)
    ensures |rs| == 0 ==> s == 0.0
    ensures |rs| == 1 ==> s == column(rs[0])
    decreases |rs|
  {
    if |rs| == 0 then 0.0 else column(rs[0]) + Sum(rs[1..], column)
  }

  /** A column sum is additive over concatenation, so it adds each record's value once. */
  lemma {:induction false} SumAppend(a: seq<Record>, b: seq<Record>, column: Record -> real)
    ensures Sum(a + b, column) == Sum(a, column) + Sum(b, column)
    decreases |a|
  {
    if |a| == 0 {
      assert a + b == b;
    } else {
      assert (a + b)[0] == a[0] && (a + b)[1..] == a[1..] + b;
      SumAppend(a[1..], b, column);
    }
  }

  /** A quotient kept as numerator and denominator, so that the summary stays in linear
      arithmetic; `Value` is the number pandas computes (up to floating-point rounding). */
  datatype Fraction = Fraction(numerator: real, denominator: nat) {

    function Value(): real
      requires denominator > 0
    {
      numerator / denominator as real
    }

    /** numerator / denominator lies in [lo, hi]. */
    predicate Within(lo: real, hi: real) {
      denominator > 0 && lo * denominator as real <= numerator <= hi * denominator as real
    }
  }

  /** A fraction whose numerator lies between lo and hi times its denominator has its
      value between lo and hi. */
  lemma WithinValue(f: Fraction, lo: real, hi: real)
    requires f.Within(lo, hi)
    ensures lo <= f.Value() <= hi
  {
    var n := f.denominator as real;
    assert lo * n / n == lo && hi * n / n == hi;
  }

  /** `.mean()` of one column over a non-empty frame. */
  function Mean(rs: seq<Record>, column: Record -> real): (m: Fraction)
    requires |rs| > 0
    ensures m.denominator == |rs| > 0
    ensures m.numerator == Sum(rs, column)
  {
    Fraction(Sum(rs, column), |rs|)
  }

  function CreditScoreColumn(r: Record): real { r.creditScore as real }
  function AgeColumn(r: Record): real { r.age as real }
  function BalanceColumn(r: Record): real { r.balance }
  function TenureColumn(r: Record): real { r.tenure as real }
  function ActiveMemberColumn(r: Record): real { r.isActiveMember as real }

  /** A column whose every value lies in [lo, hi] has its sum in [lo * n, hi * n]. */
  lemma {:induction false} SumWithin(rs: seq<Record>, column: Record -> real, lo: real, hi: real)
    requires forall i | 0 <= i < |rs| :: lo <= column(rs[i]) <= hi
    ensures lo * |rs| as real <= Sum(rs, column) <= hi * |rs| as real
    decreases |rs|
  {
    if |rs| > 0 {
      SumWithin(rs[1..], column, lo, hi);
      assert lo * |rs| as real == lo + lo * |rs[1..]| as real;
      assert hi * |rs| as real == hi + hi * |rs[1..]| as real;
    }
  }

  /** A mean lies between the column's bounds: in particular the active-member rate of a
      0/1 column lies in [0, 1]. */
  lemma MeanWithin(rs: seq<Record>, column: Record -> real, lo: real, hi: real)
    requires |rs| > 0
    requires forall i | 0 <= i < |rs| :: lo <= column(rs[i]) <= hi
    ensures lo <= Mean(rs, column).Value() <= hi
  {
    SumWithin(rs, column, lo, hi);
    WithinValue(Mean(rs, column), lo, hi);
  }

  /** One entry of the summary frame. */
  datatype GeoRow = GeoRow(
    country: Country,
    isoAlpha: string,
    totalCustomers: nat,
    churnedCustomers: nat,
    churnRate: Fraction,
    avgCreditScore: Fraction,
    avgAge: Fraction,
    avgBalance: Fraction,
    avgTenure: Fraction,
    activeMemberRate: Fraction)

  /** The statistics of one country that has at least one record. */
  function Summarize(rs: seq<Record>, c: Country): (row: GeoRow)
    requires |Matching(rs, c)| > 0
    ensures row.country == c
    ensures row.isoAlpha != "" && GetCountryCode(Name(c)) == row.isoAlpha
    ensures row.totalCustomers == |Matching(rs, c)| > 0
    ensures row.churnedCustomers <= row.totalCustomers
    ensures row.churnRate == Fraction(row.churnedCustomers as real, row.totalCustomers)
    ensures row.churnRate.Within(0.0, 1.0)
    ensures row.churnedCustomers == CountExited(Matching(rs, c))
    ensures var m := Matching(rs, c);
      && row.avgCreditScore == Mean(m, CreditScoreColumn) && row.avgAge == Mean(m, AgeColumn)
      && row.avgBalance == Mean(m, BalanceColumn) && row.avgTenure == Mean(m, TenureColumn)
      && row.activeMemberRate == Mean(m, ActiveMemberColumn)
  {
    var m := Matching(rs, c);
    var total := |m|;
    var churned := CountExited(m);
    GeoRow(
      c,
      GetCountryCode(Name(c)),
      total,
      churned,
      Fraction(churned as real, total),
      Mean(m, CreditScoreColumn),
      Mean(m, AgeColumn),
      Mean(m, BalanceColumn),
      Mean(m, TenureColumn),
      Mean(m, ActiveMemberColumn))
  }

  /** There is a summary row for `c`. */
  predicate HasRowFor(rows: seq<GeoRow>, c: Country) {
    exists i | 0 <= i < |rows| :: rows[i].country == c
  }

  /** Countries are strictly increasing in loop order: each appears at most once. */
  predicate InCountryOrder(rows: seq<GeoRow>) {
    forall i, j | 0 <= i < j < |rows| :: Rank(rows[i].country) < Rank(rows[j].country)
  }

  /** One iteration of the loop: the country's summary, or nothing when it has no record. */
  function RowFor(rs: seq<Record>, c: Country): (rows: seq<GeoRow>)
    ensures |rows| <= 1
    ensures |rows| == 1 <==> |Matching(rs, c)| > 0
    ensures forall i | 0 <= i < |rows| ::
      rows[i].country == c && |Matching(rs, c)| > 0 && rows[i] == Summarize(rs, c)
  {
    if |Matching(rs, c)| > 0 then [Summarize(rs, c)] else []
  }

  /** The loop of `get_geo_churn_data` over the countries still to visit. */
  function GeoChurnFrom(rs: seq<Record>, cs: seq<Country>): (rows: seq<GeoRow>)
    ensures |rows| <= |cs|
    decreases |cs|
  {
    if |cs| == 0 then [] else RowFor(rs, cs[0]) + GeoChurnFrom(rs, cs[1..])
  }

  /** Each row belongs to one of `cs` and to a country with at least one record. */
  predicate FromCountries(rows: seq<GeoRow>, rs: seq<Record>, cs: seq<Country>) {
    forall i | 0 <= i < |rows| :: rows[i].country in cs && |Matching(rs, rows[i].country)| > 0
  }

  /** Each row is the summary of its own country. */
  predicate Summaries(rows: seq<GeoRow>, rs: seq<Record>) {
    forall i | 0 <= i < |rows| ::
      |Matching(rs, rows[i].country)| > 0 && rows[i] == Summarize(rs, rows[i].country)
  }

  /** The loop only emits rows for visited countries that have records. */
  lemma {:induction false} GeoChurnFromCountries(rs: seq<Record>, cs: seq<Country>)
    ensures FromCountries(GeoChurnFrom(rs, cs), rs, cs)
    decreases |cs|
  {
    if |cs| > 0 {
      var head, rest := RowFor(rs, cs[0]), GeoChurnFrom(rs, cs[1..]);
      var rows := head + rest;
      GeoChurnFromCountries(rs, cs[1..]);
      forall i | 0 <= i < |rows|
        ensures rows[i].country in cs && |Matching(rs, rows[i].country)| > 0
      {
        if i >= |head| {
          assert rows[i] == rest[i - |head|];
          assert rest[i - |head|].country in cs[1..];
        }
      }
    }
  }

  /** Every row the loop emits is the summary of its country. */
  lemma {:induction false} GeoChurnFromRows(rs: seq<Record>, cs: seq<Country>)
    ensures Summaries(GeoChurnFrom(rs, cs), rs)
    decreases |cs|
  {
    if |cs| > 0 {
      var head, rest := RowFor(rs, cs[0]), GeoChurnFrom(rs, cs[1..]);
      var rows := head + rest;
      GeoChurnFromRows(rs, cs[1..]);
      forall i | 0 <= i < |rows|
        ensures |Matching(rs, rows[i].country)| > 0 && rows[i] == Summarize(rs, rows[i].country)
      {
        if i >= |head| {
          assert rows[i] == rest[i - |head|];
        }
      }
    }
  }

  /** Rows come out in the order the countries are visited. */
  lemma {:induction false} GeoChurnFromOrder(rs: seq<Record>, cs: seq<Country>)
    requires forall i, j | 0 <= i < j < |cs| :: Rank(cs[i]) < Rank(cs[j])
    ensures InCountryOrder(GeoChurnFrom(rs, cs))
    decreases |cs|
  {
    if |cs| > 0 {
      var tail := cs[1..];
      forall i, j | 0 <= i < j < |tail|
        ensures Rank(tail[i]) < Rank(tail[j])
      {
        assert tail[i] == cs[i + 1] && tail[j] == cs[j + 1];
      }
      forall i | 0 <= i < |tail|
        ensures Rank(cs[0]) < Rank(tail[i])
      {
        assert tail[i] == cs[i + 1];
      }
      GeoChurnFromOrder(rs, tail);
      GeoChurnFromAbove(rs, tail, Rank(cs[0]));
      OrderedAfter(RowFor(rs, cs[0]), GeoChurnFrom(rs, tail), Rank(cs[0]));
    }
  }

  /** At most one row ranked `k`, followed by ordered rows all ranked above `k`, is ordered. */
  lemma OrderedAfter(head: seq<GeoRow>, rest: seq<GeoRow>, k: int)
    requires |head| <= 1 && forall i | 0 <= i < |head| :: Rank(head[i].country) == k
    requires InCountryOrder(rest)
    requires forall i | 0 <= i < |rest| :: k < Rank(rest[i].country)
    ensures InCountryOrder(head + rest)
  {
    var rows := head + rest;
    forall i, j | 0 <= i < j < |rows|
      ensures Rank(rows[i].country) < Rank(rows[j].country)
    {
      assert rows[j] == rest[j - |head|];
      if i < |head| {
        assert rows[i] == head[i];
      } else {
        assert rows[i] == rest[i - |head|];
      }
    }
  }

  /** Visiting only countries ranked above `k` emits only rows ranked above `k`. */
  lemma {:induction false} GeoChurnFromAbove(rs: seq<Record>, cs: seq<Country>, k: int)
    requires forall i | 0 <= i < |cs| :: k < Rank(cs[i])
    ensures forall i | 0 <= i < |GeoChurnFrom(rs, cs)| :: k < Rank(GeoChurnFrom(rs, cs)[i].country)
    decreases |cs|
  {
    if |cs| > 0 {
      var head, rest := RowFor(rs, cs[0]), GeoChurnFrom(rs, cs[1..]);
      var rows: seq<GeoRow> := head + rest;
      GeoChurnFromAbove(rs, cs[1..], k);
      forall i | 0 <= i < |rows|
        ensures k < Rank(rows[i].country)
      {
        if i >= |head| { assert rows[i] == rest[i - |head|]; }
      }
    }
  }

  /** A visited country with at least one record gets a row. */
  lemma {:induction false} GeoChurnFromEmits(rs: seq<Record>, cs: seq<Country>, c: Country)
    requires c in cs && |Matching(rs, c)| > 0
    ensures HasRowFor(GeoChurnFrom(rs, cs), c)
    decreases |cs|
  {
    var head, rest := RowFor(rs, cs[0]), GeoChurnFrom(rs, cs[1..]);
    var rows := head + rest;
    if c == cs[0] {
      assert rows[0].country == c;
    } else {
      GeoChurnFromEmits(rs, cs[1..], c);
      var i :| 0 <= i < |rest| && rest[i].country == c;
      assert rows[|head| + i].country == c;
    }
  }

  /** A visited country has a row exactly when it has at least one record. */
  lemma GeoChurnFromPresence(rs: seq<Record>, cs: seq<Country>, c: Country)
    requires c in cs
    ensures HasRowFor(GeoChurnFrom(rs, cs), c) <==> |Matching(rs, c)| > 0
  {
    GeoChurnFromCountries(rs, cs);
    if |Matching(rs, c)| > 0 {
      GeoChurnFromEmits(rs, cs, c);
    }
  }

  /** The loop over France, Germany and Spain gives a country a row exactly when it has
      a record. */
  lemma GeoChurnOverCountries(rs: seq<Record>)
    ensures forall c: Country :: HasRowFor(GeoChurnFrom(rs, Countries), c) <==> |Matching(rs, c)| > 0
  {
    forall c: Country
      ensures HasRowFor(GeoChurnFrom(rs, Countries), c) <==> |Matching(rs, c)| > 0
    {
      assert Countries[Rank(c)] == c;
      GeoChurnFromPresence(rs, Countries, c);
    }
  }

  /** `get_geo_churn_data`: one summary row per country with at least one record. */
  function GetGeoChurnData(rs: seq<Record>): (rows: seq<GeoRow>)
    ensures |rows| <= 3
    ensures InCountryOrder(rows)
    ensures Summaries(rows, rs)
    ensures forall c: Country :: HasRowFor(rows, c) <==> |Matching(rs, c)| > 0
  {
    GeoChurnFromRows(rs, Countries);
    GeoChurnFromOrder(rs, Countries);
    GeoChurnOverCountries(rs);
    GeoChurnFrom(rs, Countries)
  }

  /** The summary is empty exactly when no country has a record. */
  lemma EmptySummary(rs: seq<Record>)
    ensures |GetGeoChurnData(rs)| == 0 <==>
      |Matching(rs, France)| + |Matching(rs, Germany)| + |Matching(rs, Spain)| == 0
  {
    var rows := GetGeoChurnData(rs);
    assert |rows| > 0 ==> HasRowFor(rows, rows[0].country);
  }

  /** Number of countries whose flag the record sets to 1. */
  function FlagsSet(r: Record): nat {
    Flag01(r, France) + Flag01(r, Germany) + Flag01(r, Spain)
  }

  function TotalCustomers(rows: seq<GeoRow>): nat
    decreases |rows|
  {
    if |rows| == 0 then 0 else rows[0].totalCustomers + TotalCustomers(rows[1..])
  }

  /** Counting per country over a whole dataset: the per-country counts add up to the
      number of flags set. */
  lemma {:induction false} CountsAddUp(rs: seq<Record>)
    requires forall i | 0 <= i < |rs| :: FlagsSet(rs[i]) <= 1
    ensures |Matching(rs, France)| + |Matching(rs, Germany)| + |Matching(rs, Spain)| <= |rs|
    ensures (forall i | 0 <= i < |rs| :: FlagsSet(rs[i]) == 1) ==>
      |Matching(rs, France)| + |Matching(rs, Germany)| + |Matching(rs, Spain)| == |rs|
    decreases |rs|
  {
    if |rs| > 0 {
      CountsAddUp(rs[1..]);
      assert |Matching(rs, France)| == Flag01(rs[0], France) + |Matching(rs[1..], France)|;
      assert |Matching(rs, Germany)| == Flag01(rs[0], Germany) + |Matching(rs[1..], Germany)|;
      assert |Matching(rs, Spain)| == Flag01(rs[0], Spain) + |Matching(rs[1..], Spain)|;
    }
  }

  function Flag01(r: Record, c: Country): nat {
    if Flag(r, c) == 1 then 1 else 0
  }

  /** The summary's total equals the sum of the three per-country counts (an omitted
      country contributes zero either way). */
  lemma TotalOfSummary(rs: seq<Record>)
    ensures TotalCustomers(GetGeoChurnData(rs))
      == |Matching(rs, France)| + |Matching(rs, Germany)| + |Matching(rs, Spain)|
  {
    var rf, rg, rsp := RowFor(rs, France), RowFor(rs, Germany), RowFor(rs, Spain);
    assert Countries[1..] == [Germany, Spain] && Countries[1..][1..] == [Spain];
    assert GeoChurnFrom(rs, [Spain]) == rsp + [];
    assert GetGeoChurnData(rs) == rf + (rg + (rsp + []));
    TotalAppend(rf, rg + (rsp + []));
    TotalAppend(rg, rsp + []);
    TotalAppend(rsp, []);
  }

  lemma {:induction false} TotalAppend(a: seq<GeoRow>, b: seq<GeoRow>)
    ensures TotalCustomers(a + b) == TotalCustomers(a) + TotalCustomers(b)
    decreases |a|
  {
    if |a| > 0 {
      assert (a + b)[1..] == a[1..] + b;
      TotalAppend(a[1..], b);
    } else {
      assert a + b == b;
    }
  }

  /** When no record sets two geography flags, the summary counts each record at most once;
      when every record sets exactly one, it counts each exactly once. */
  lemma SummaryCountsEachRecordOnce(rs: seq<Record>)
    requires forall i | 0 <= i < |rs| :: FlagsSet(rs[i]) <= 1
    ensures TotalCustomers(GetGeoChurnData(rs)) <= |rs|
    ensures (forall i | 0 <= i < |rs| :: FlagsSet(rs[i]) == 1) ==> TotalCustomers(GetGeoChurnData(rs)) == |rs|
  {
    TotalOfSummary(rs);
    CountsAddUp(rs);
  }

  /** Two French customers, one of whom left, give a single French row with rate one half. */
  lemma TwoFrenchCustomers()
    ensures var rows := GetGeoChurnData([
        Record(600, 40, 3, 0.0, 1, 1, 1, 0, 0),
        Record(700, 30, 5, 100.0, 0, 0, 1, 0, 0)]);
      |rows| == 1 && rows[0].country == France && rows[0].isoAlpha == "FRA"
      && rows[0].totalCustomers == 2 && rows[0].churnedCustomers == 1 && rows[0].churnRate.Value() == 0.5
  {
    var rs := [Record(600, 40, 3, 0.0, 1, 1, 1, 0, 0), Record(700, 30, 5, 100.0, 0, 0, 1, 0, 0)];
    assert Matching(rs, Germany) == [] && Matching(rs, Spain) == [];
    assert Matching(rs, France) == rs;
    var rows := GetGeoChurnData(rs);
    assert !HasRowFor(rows, Germany) && !HasRowFor(rows, Spain);
    assert HasRowFor(rows, France);
  }
}

=== FILE: properties.dfy ===
/** Properties that relate several operations of the dashboard: the prediction callback
    end to end, the map's detail card against the summary it reads, and the summary's
    statistics. */
module Properties {
  import opened Wrappers
  import opened Text
  import opened Churn
  import Home

  /** `to_binary` rejects every look-alike of "1". */
  lemma ToBinaryIsStrict()
    ensures ToBinary(Int(1)) == 0 && ToBinary(Real(1.0)) == 0 && ToBinary(Bool(true)) == 0
    ensures ToBinary(Str("true")) == 0 && ToBinary(Str("01")) == 0 && ToBinary(Str(" 1")) == 0
    ensures ToBinary(Str("1")) == 1
  {
  }

  /** As written, the outcome of clicking a complete row does not depend on its geography
      cells: two rows that agree on the nine other model columns give the same result,
      whatever country either names. */
  lemma GeographyAsWrittenIsIgnored(cell: ActiveCell, modelSelect: Option<string>, t1: seq<Row>, t2: seq<Row>,
                                    existing: set<string>, infer: (LoadedModel, FeatureVector) -> Prediction)
    requires PyIndex(t1, cell.row).Success? && HasAllFields(PyIndex(t1, cell.row).value)
    requires PyIndex(t2, cell.row).Success? && HasAllFields(PyIndex(t2, cell.row).value)
    requires forall i | 0 <= i < 9 ::
      Get(PyIndex(t1, cell.row).value, RequiredFields[i]) == Get(PyIndex(t2, cell.row).value, RequiredFields[i])
    ensures CellSelect(Some(cell), modelSelect, t1, existing, infer)
         == CellSelect(Some(cell), modelSelect, t2, existing, infer)
  {
    var r1, r2 := PyIndex(t1, cell.row).value, PyIndex(t2, cell.row).value;
    SameCellsSameEncoding(r1, r2);
  }

  /** Rows that agree on the nine non-geography columns encode alike, as written. */
  lemma SameCellsSameEncoding(r1: Row, r2: Row)
    requires forall i | 0 <= i < 9 :: Get(r1, RequiredFields[i]) == Get(r2, RequiredFields[i])
    ensures EncodeFeatures(r1) == EncodeFeatures(r2)
  {
    assert Get(r1, "CreditScore") == Get(r2, "CreditScore") by { assert RequiredFields[0] == "CreditScore"; }
    assert Get(r1, "Gender") == Get(r2, "Gender") by { assert RequiredFields[1] == "Gender"; }
    assert Get(r1, "Age") == Get(r2, "Age") by { assert RequiredFields[2] == "Age"; }
    assert Get(r1, "Tenure") == Get(r2, "Tenure") by { assert RequiredFields[3] == "Tenure"; }
    assert Get(r1, "Balance") == Get(r2, "Balance") by { assert RequiredFields[4] == "Balance"; }
    assert Get(r1, "NumOfProducts") == Get(r2, "NumOfProducts") by { assert RequiredFields[5] == "NumOfProducts"; }
    assert Get(r1, "HasCrCard") == Get(r2, "HasCrCard") by { assert RequiredFields[6] == "HasCrCard"; }
    assert Get(r1, "IsActiveMember") == Get(r2, "IsActiveMember") by { assert RequiredFields[7] == "IsActiveMember"; }
    assert Get(r1, "EstimatedSalary") == Get(r2, "EstimatedSalary") by { assert RequiredFields[8] == "EstimatedSalary"; }
  }

  /** The presence check tests exactly the twelve model columns. */
  lemma PresenceCheckCoversColumns(row: Row)
    ensures HasAllFields(row) <==> forall i | 0 <= i < |RequiredFields| :: Get(row, RequiredFields[i]) != Null
  {
    if forall i | 0 <= i < |RequiredFields| :: Get(row, RequiredFields[i]) != Null {
      assert Get(row, RequiredFields[0]) != Null && Get(row, RequiredFields[1]) != Null;
      assert Get(row, RequiredFields[2]) != Null && Get(row, RequiredFields[3]) != Null;
      assert Get(row, RequiredFields[4]) != Null && Get(row, RequiredFields[5]) != Null;
      assert Get(row, RequiredFields[6]) != Null && Get(row, RequiredFields[7]) != Null;
      assert Get(row, RequiredFields[8]) != Null && Get(row, RequiredFields[9]) != Null;
      assert Get(row, RequiredFields[10]) != Null && Get(row, RequiredFields[11]) != Null;
    }
  }

  /** A row with a missing field gets the "Missing Fields" toast, and neither the artifacts
      on disk nor the model's answers can change that: no vector is built, no model loaded. */
  lemma MissingFieldsSkipsModel(cell: ActiveCell, id: string, table: seq<Row>,
                                existing1: set<string>, infer1: (LoadedModel, FeatureVector) -> Prediction,
                                existing2: set<string>, infer2: (LoadedModel, FeatureVector) -> Prediction)
    requires id != ""
    requires PyIndex(table, cell.row).Success? && !HasAllFields(PyIndex(table, cell.row).value)
    ensures CellSelect(Some(cell), Some(id), table, existing1, infer1) == Success(MissingFieldsToast)
    ensures CellSelect(Some(cell), Some(id), table, existing1, infer1)
         == CellSelect(Some(cell), Some(id), table, existing2, infer2)
  {
  }

  /** A complete row whose numbers do not parse raises ValueError before any model is
      looked up, whatever the model id. */
  lemma BadNumberRaises(cell: ActiveCell, id: string, table: seq<Row>,
                        existing: set<string>, infer: (LoadedModel, FeatureVector) -> Prediction)
    requires id != ""
    requires PyIndex(table, cell.row).Success?
    requires HasAllFields(PyIndex(table, cell.row).value) && !NumbersParse(PyIndex(table, cell.row).value)
    ensures CellSelect(Some(cell), Some(id), table, existing, infer) == Failure(ValueError)
  {
  }

  /** A model id outside the table, once the row is encoded, fails at `selected_model.get`. */
  lemma UnknownModelRaises(cell: ActiveCell, id: string, table: seq<Row>,
                           existing: set<string>, infer: (LoadedModel, FeatureVector) -> Prediction)
    requires id != "" && id != "ann" && id != "random_forest"
    requires PyIndex(table, cell.row).Success?
    requires HasAllFields(PyIndex(table, cell.row).value) && NumbersParse(PyIndex(table, cell.row).value)
    ensures CellSelect(Some(cell), Some(id), table, existing, infer) == Failure(AttributeError)
  {
  }

  /** A registered model whose artifact is absent: `load_model` returns None and the
      prediction call on it raises AttributeError. */
  lemma MissingArtifactRaises(cell: ActiveCell, id: string, table: seq<Row>,
                              existing: set<string>, infer: (LoadedModel, FeatureVector) -> Prediction)
    requires id == "ann" || id == "random_forest"
    requires ArtifactPath(ModelMap(id).value.modelPath) !in existing
    requires PyIndex(table, cell.row).Success?
    requires HasAllFields(PyIndex(table, cell.row).value) && NumbersParse(PyIndex(table, cell.row).value)
    ensures CellSelect(Some(cell), Some(id), table, existing, infer) == Failure(AttributeError)
  {
  }

  /** A complete, parseable row reaches the model stage with its encoded vector. */
  lemma CompleteRowRunsModel(cell: ActiveCell, id: string, table: seq<Row>,
                             existing: set<string>, infer: (LoadedModel, FeatureVector) -> Prediction)
    requires id != ""
    requires PyIndex(table, cell.row).Success?
    requires HasAllFields(PyIndex(table, cell.row).value) && NumbersParse(PyIndex(table, cell.row).value)
    ensures CellSelect(Some(cell), Some(id), table, existing, infer)
         == RunModel(id, EncodeFeatures(PyIndex(table, cell.row).value).value, existing, infer)
  {
  }

  /** The neural network's artifact is a ".keras" file, loaded as a Keras model. */
  lemma NetworkArtifact(existing: set<string>)
    requires ArtifactPath("ann.keras") in existing
    ensures var path := ArtifactPath(ModelMap("ann").value.modelPath);
      && path == ArtifactPath("ann.keras")
      && EndsWith(path, ".keras") && !EndsWith(path, ".pkl")
      && LoadModel(path, existing) == Some(KerasModel(path))
  {
    var path := ArtifactPath("ann.keras");
    assert EndsWith("ann.keras", ".keras");
    EndsWithTrans(path, "ann.keras", ".keras");
    SuffixesExclusive(path);
  }

  /** The neural network: loaded as a Keras model, its prediction read at [0][0]. */
  lemma NeuralNetworkPrediction(v: FeatureVector, existing: set<string>,
                                infer: (LoadedModel, FeatureVector) -> Prediction)
    requires ArtifactPath("ann.keras") in existing
    requires var p := infer(KerasModel(ArtifactPath("ann.keras")), v); |p| > 0 && |p[0]| > 0
    ensures RunModel("ann", v, existing, infer)
         == Success(SuccessOutputs("Artifical Neural Network", infer(KerasModel(ArtifactPath("ann.keras")), v)[0][0] * 100.0))
  {
    NetworkArtifact(existing);
  }

  /** The random forest's artifact is a ".pkl" file, loaded by unpickling. */
  lemma ForestArtifact(existing: set<string>)
    requires ArtifactPath("random_forest.pkl") in existing
    ensures var path := ArtifactPath(ModelMap("random_forest").value.modelPath);
      && path == ArtifactPath("random_forest.pkl")
      && EndsWith(path, ".pkl") && !EndsWith(path, ".keras")
      && LoadModel(path, existing) == Some(PickledModel(path))
  {
    var path := ArtifactPath("random_forest.pkl");
    assert EndsWith("random_forest.pkl", ".pkl");
    EndsWithTrans(path, "random_forest.pkl", ".pkl");
    SuffixesExclusive(path);
  }

  /** The random forest: unpickled, its churn-class probability read at [0][1]. */
  lemma RandomForestPrediction(v: FeatureVector, existing: set<string>,
                               infer: (LoadedModel, FeatureVector) -> Prediction)
    requires ArtifactPath("random_forest.pkl") in existing
    requires var p := infer(PickledModel(ArtifactPath("random_forest.pkl")), v); |p| > 0 && |p[0]| > 1
    ensures RunModel("random_forest", v, existing, infer)
         == Success(SuccessOutputs("Random Forest", infer(PickledModel(ArtifactPath("random_forest.pkl")), v)[0][1] * 100.0))
  {
    ForestArtifact(existing);
  }

  /** In the summary frame, the first row of a country with customers is its summary. */
  lemma FirstRowIsSummary(rs: seq<Home.Record>, c: Home.Country)
    requires |Home.Matching(rs, c)| > 0
    ensures FirstRowOf(Home.GetGeoChurnData(rs), c) == Success(Home.Summarize(rs, c))
  {
    var frame := Home.GetGeoChurnData(rs);
    var r := FirstRowOf(frame, c);
    assert Home.HasRowFor(frame, c);
    var i :| 0 <= i < |frame| && frame[i] == r.value;
    assert frame[i].country == c;
  }

  /** Clicking a country's code looks the country up in the frame and shows what the
      lookup finds, or raises what it raises. */
  lemma DetailsOfCountry(c: Home.Country, frame: seq<Home.GeoRow>)
    ensures var r := DisplayCountryDetails(Some(Home.GetCountryCode(Home.Name(c))), frame);
      && (FirstRowOf(frame, c).Success? ==> r == Success(CountryTable(FirstRowOf(frame, c).value)))
      && (FirstRowOf(frame, c).Failure? ==> r == Failure(FirstRowOf(frame, c).error))
  {
    IsoLookupInvertsCountryCode(Home.GetCountryCode(Home.Name(c)), c);
  }

  /** The detail card for a clicked country shows that country's summary exactly when the
      country has customers. Otherwise `.iloc[0]` on the empty selection raises IndexError,
      unless no country has any customer: then the summary frame has no "Country" column
      and the selection itself raises KeyError. */
  lemma DetailsFollowSummary(rs: seq<Home.Record>, c: Home.Country)
    ensures var r := DisplayCountryDetails(Some(Home.GetCountryCode(Home.Name(c))), Home.GetGeoChurnData(rs));
      var customers := |Home.Matching(rs, Home.France)| + |Home.Matching(rs, Home.Germany)|
        + |Home.Matching(rs, Home.Spain)|;
      && (|Home.Matching(rs, c)| > 0 ==> r == Success(CountryTable(Home.Summarize(rs, c))))
      && (|Home.Matching(rs, c)| == 0 && customers > 0 ==> r == Failure(IndexError))
      && (customers == 0 ==> r == Failure(KeyError))
  {
    var frame := Home.GetGeoChurnData(rs);
    DetailsOfCountry(c, frame);
    Home.EmptySummary(rs);
    if |Home.Matching(rs, c)| > 0 {
      FirstRowIsSummary(rs, c);
    } else {
      assert !Home.HasRowFor(frame, c);
    }
  }

  /** The rates a summary row reports lie in [0, 1]: the churn rate always, the active-member
      rate when the `IsActiveMember` column holds 0/1 values. */
  lemma RatesAreFractions(rs: seq<Home.Record>, i: nat)
    requires i < |Home.GetGeoChurnData(rs)|
    requires forall k | 0 <= k < |rs| :: 0 <= rs[k].isActiveMember <= 1
    ensures var row := Home.GetGeoChurnData(rs)[i];
      0.0 <= row.churnRate.Value() <= 1.0 && 0.0 <= row.activeMemberRate.Value() <= 1.0
  {
    var row := Home.GetGeoChurnData(rs)[i];
    var m := Home.Matching(rs, row.country);
    Home.WithinValue(row.churnRate, 0.0, 1.0);
    forall k | 0 <= k < |m|
      ensures 0.0 <= Home.ActiveMemberColumn(m[k]) <= 1.0
    {
      Home.MatchingSelects(rs, row.country, m[k]);
    }
    Home.MeanWithin(m, Home.ActiveMemberColumn, 0.0, 1.0);
  }
}

=== FILE: text.dfy ===
/** The Python string operations the dashboard relies on: `int(str)`, `float(str)`,
    `str(int)`, `str.split`, the `in` substring test and `str.endswith`. */
module Text {
  import opened Wrappers

  predicate IsDigit(c: char) {
    '0' <= c <= '9'
  }

  predicate AllDigits(s: string) {
    forall i | 0 <= i < |s| :: IsDigit(s[i])
  }

  /** A non-empty run of ASCII decimal digits. */
  predicate IsDigits(s: string) {
    |s| > 0 && AllDigits(s)
  }

  /** The value of a run of decimal digits, most significant first (leading zeros allowed,
      as Python's `int("007") == 7`). */
  function DigitsValue(s: string): nat
    requires AllDigits(s)
    decreases |s|
  {
    if |s| == 0 then 0
    else 10 * DigitsValue(s[..|s| - 1]) + (s[|s| - 1] as int - '0' as int)
  }

  function DigitChar(d: nat): (c: char)
    requires d < 10
    ensures IsDigit(c)
  {
    ('0' as int + d) as char
  }

  /** The shortest decimal spelling of `n`, as Python's `str(n)`. */
  function NatToDigits(n: nat): (s: string)
    ensures IsDigits(s)
    ensures n < 10 <==> |s| == 1
    ensures s[0] == '0' <==> n == 0
    decreases n
  {
    (if n < 10 then "" else NatToDigits(n / 10)) + [DigitChar(n % 10)]
  }

  lemma {:induction false} DigitsRoundTrip(n: nat)
    ensures DigitsValue(NatToDigits(n)) == n
    decreases n
  {
    var s := NatToDigits(n);
    if n >= 10 {
      DigitsRoundTrip(n / 10);
      assert s[..|s| - 1] == NatToDigits(n / 10);
    } else {
      assert s[..|s| - 1] == "";
    }
  }

  /** Python's `str(i)` for an integer. */
  function IntToString(i: int): string {
    if i < 0 then "-" + NatToDigits(-i) else NatToDigits(i)
  }

  /** Python's `int(s)` for a string: an optional sign followed by decimal digits.
      None stands for the ValueError Python raises. */
  function ParseInt(s: string): (r: Option<int>)
    ensures r.Some? <==>
      && |s| > 0
      && (IsDigit(s[0]) || ((s[0] == '-' || s[0] == '+') && |s| > 1))
      && forall k | 1 <= k < |s| :: IsDigit(s[k])
    ensures r.Some? && r.value < 0 ==> s[0] == '-'
  {
    if |s| > 0 && (s[0] == '-' || s[0] == '+') then
      assert forall k | 1 <= k < |s| :: s[k] == s[1..][k - 1];
      if IsDigits(s[1..]) then
        var n: int := DigitsValue(s[1..]);
        Some(if s[0] == '-' then -n else n)
      else None
    else if IsDigits(s) then Some(DigitsValue(s))
    else None
  }

  /** A run of digits parses as its value. */
  lemma ParseDigits(d: string)
    requires IsDigits(d)
    ensures ParseInt(d) == Some(DigitsValue(d) as int)
  {
    assert IsDigit(d[0]);
  }

  /** A minus sign before a run of digits negates its value. */
  lemma ParseNegative(d: string)
    requires IsDigits(d)
    ensures ParseInt("-" + d) == Some(-(DigitsValue(d) as int))
  {
    assert ("-" + d)[1..] == d;
  }

  /** `int(str(i)) == i`: Python's integer printing and parsing are inverse. */
  lemma IntRoundTrip(i: int)
    ensures ParseInt(IntToString(i)) == Some(i)
  {
    if i < 0 {
      DigitsRoundTrip(-i);
      ParseNegative(NatToDigits(-i));
    } else {
      DigitsRoundTrip(i);
      ParseDigits(NatToDigits(i));
    }
  }

  /** Position of the first occurrence of `c` in `s`. */
  function IndexOf(s: string, c: char): (k: nat)
    requires c in s
    ensures k < |s| && s[k] == c && c !in s[..k]
  {
    if s[0] == c then 0 else 1 + IndexOf(s[1..], c)
  }

  /** The first occurrence is the one with no earlier occurrence. */
  lemma {:induction false} IndexOfFirst(s: string, c: char, k: nat)
    requires k < |s| && s[k] == c && c !in s[..k]
    ensures IndexOf(s, c) == k
    decreases k
  {
    if k > 0 {
      assert s[0] in s[..k];
      assert s[1..][..k - 1] == s[1..k];
      assert forall x | x in s[1..k] :: x in s[..k];
      IndexOfFirst(s[1..], c, k - 1);
    }
  }

  function Pow10(n: nat): (p: nat)
    ensures p >= 1
  {
    if n == 0 then 1 else 10 * Pow10(n - 1)
  }

  /** The value of the literal `whole.frac`: the whole part plus the fraction part scaled
      down by ten to its length. */
  function PointValue(whole: string, frac: string): real
    requires AllDigits(whole) && AllDigits(frac)
  {
    DigitsValue(whole) as real + DigitsValue(frac) as real / Pow10(|frac|) as real
  }

  /** An unsigned decimal literal: digits, optionally with one '.', at least one digit. */
  function ParseUnsignedReal(s: string): Option<real> {
    if IsDigits(s) then Some(DigitsValue(s) as real)
    else if '.' in s then
      var k := IndexOf(s, '.');
      var whole, frac := s[..k], s[k + 1..];
      if |s| > 1 && AllDigits(whole) && AllDigits(frac) then Some(PointValue(whole, frac))
      else None
    else None
  }

  /** The text of an unsigned decimal literal: only digits and points, at most one point,
      and at least one digit. */
  predicate DecimalShape(t: string) {
    && (forall k | 0 <= k < |t| :: IsDigit(t[k]) || t[k] == '.')
    && (forall i, j | 0 <= i < j < |t| && t[i] == '.' :: t[j] != '.')
    && (exists k | 0 <= k < |t| :: IsDigit(t[k]))
  }

  /** The unsigned reader accepts exactly the strings of decimal-literal shape. */
  lemma UnsignedRealShape(s: string)
    ensures ParseUnsignedReal(s).Some? <==> DecimalShape(s)
  {
    if IsDigits(s) {
      assert IsDigit(s[0]);
    } else if '.' in s {
      var k := IndexOf(s, '.');
      var whole, frac := s[..k], s[k + 1..];
      if DecimalShape(s) {
        forall i | 0 <= i < |whole|
          ensures IsDigit(whole[i])
        {
          assert whole[i] == s[i] && s[i] in s[..k];
        }
        forall i | 0 <= i < |frac|
          ensures IsDigit(frac[i])
        {
          assert frac[i] == s[k + 1 + i];
        }
        var d :| 0 <= d < |s| && IsDigit(s[d]);
        assert d != k;
      }
      if |s| > 1 && AllDigits(whole) && AllDigits(frac) {
        forall i | 0 <= i < |s|
          ensures IsDigit(s[i]) || s[i] == '.'
          ensures s[i] == '.' ==> i == k
        {
          if i < k { assert s[i] == whole[i]; } else if i > k { assert s[i] == frac[i - k - 1]; }
        }
        if k > 0 { assert IsDigit(s[0]); } else { assert IsDigit(s[1]); }
      }
    } else if |s| > 0 {
      var i :| 0 <= i < |s| && !IsDigit(s[i]);
      assert s[i] != '.';
    }
  }

  /** Python's `float(s)` for a string in plain decimal notation (sign, digits, '.').
      None stands for the ValueError Python raises. */
  function ParseReal(s: string): (r: Option<real>)
    ensures r.Some? <==>
      && |s| > 0
      && if s[0] == '-' || s[0] == '+' then DecimalShape(s[1..]) else DecimalShape(s)
    ensures r.Some? && r.value < 0.0 ==> s[0] == '-'
  {
    if |s| > 0 && (s[0] == '-' || s[0] == '+') then
      UnsignedRealShape(s[1..]);
      match ParseUnsignedReal(s[1..])
      case Some(x) => Some(if s[0] == '-' then -x else x)
      case None => None
    else
      UnsignedRealShape(s);
      ParseUnsignedReal(s)
  }

  /** Text that is not a number is refused by both readers (Python raises ValueError). */
  lemma NonNumbersRejected()
    ensures ParseInt("") == None && ParseInt("-") == None && ParseInt("abc") == None
    ensures ParseInt("12a") == None && ParseInt("1.5") == None && ParseInt("1-2") == None
    ensures ParseReal("") == None && ParseReal(".") == None && ParseReal("-.") == None
    ensures ParseReal("abc") == None && ParseReal("12a") == None && ParseReal("1.2.3") == None
  {
    assert !IsDigit("12a"[2]) && !IsDigit("1.5"[1]) && !IsDigit("1-2"[1]) && !IsDigit("abc"[0]);
    assert !DecimalShape(".") && !DecimalShape("abc") && !DecimalShape("12a");
    assert "1.2.3"[1] == '.' && "1.2.3"[3] == '.';
    assert ("-.")[1..] == ".";
  }

  /** Every string `int` accepts, `float` accepts too, with the same value. */
  lemma RealAgreesWithInt(s: string)
    ensures ParseInt(s).Some? ==> ParseReal(s) == Some(ParseInt(s).value as real)
  {
  }

  /** Two digit runs written one after the other form a digit run. */
  lemma AllDigitsAppend(w: string, f: string)
    requires AllDigits(w) && AllDigits(f)
    ensures AllDigits(w + f)
  {
    forall i | 0 <= i < |w + f|
      ensures IsDigit((w + f)[i])
    {
      if i < |w| { assert (w + f)[i] == w[i]; } else { assert (w + f)[i] == f[i - |w|]; }
    }
  }

  /** Digits written after digits: the value of the first run is shifted left by the
      length of the second. */
  lemma {:induction false} DigitsValueAppend(w: string, f: string)
    requires AllDigits(w) && AllDigits(f)
    ensures AllDigits(w + f)
    ensures DigitsValue(w + f) == DigitsValue(w) * Pow10(|f|) + DigitsValue(f)
    decreases |f|
  {
    AllDigitsAppend(w, f);
    if |f| == 0 {
      assert w + f == w;
    } else {
      var init := f[..|f| - 1];
      assert f == init + [f[|f| - 1]];
      assert AllDigits(init);
      DigitsValueAppend(w, init);
      assert w + f == (w + init) + [f[|f| - 1]];
      ShiftTen(DigitsValue(w), Pow10(|init|));
    }
  }

  /** Multiplying by ten after the shift is the shift by one more digit. */
  lemma ShiftTen(a: nat, p: nat)
    ensures 10 * (a * p) == a * (10 * p)
  {
  }

  /** An unsigned decimal literal (digits, a point, digits) is read by `ParseUnsignedReal`
      as the whole part plus the fraction part, and `ParseReal` reads it the same way. */
  lemma UnsignedDecimalValue(w: string, f: string)
    requires AllDigits(w) && AllDigits(f) && |w| + |f| > 0
    ensures ParseUnsignedReal(w + "." + f) == Some(PointValue(w, f))
    ensures ParseReal(w + "." + f) == ParseUnsignedReal(w + "." + f)
  {
    PointSplits(w, f);
    ReadAtPoint(w + "." + f, |w|, w, f);
    UnsignedFirst(w, f);
    ReadUnsigned(w + "." + f);
  }

  /** The point after a digit run is the first point, and it splits the literal back
      into the two runs. */
  lemma PointSplits(w: string, f: string)
    requires AllDigits(w)
    ensures var s := w + "." + f;
      1 <= |s| && |w| < |s| && s[|w|] == '.' && IndexOf(s, '.') == |w| && s[..|w|] == w && s[|w| + 1..] == f
  {
    var s := w + "." + f;
    assert s[|w|] == '.';
    assert s[..|w|] == w && s[|w| + 1..] == f;
    forall i | 0 <= i < |w|
      ensures w[i] != '.'
    {
      assert IsDigit(w[i]);
    }
    IndexOfFirst(s, '.', |w|);
  }

  /** A literal whose first point is at `k`, with digit runs `w` before and `f` after it,
      reads as the whole part plus the fraction part. */
  lemma ReadAtPoint(s: string, k: nat, w: string, f: string)
    requires k < |s| && s[k] == '.' && IndexOf(s, '.') == k && |s| > 1
    requires s[..k] == w && s[k + 1..] == f && AllDigits(w) && AllDigits(f)
    ensures ParseUnsignedReal(s) == Some(PointValue(w, f))
  {
    assert '.' in s && !IsDigit(s[k]);
    var whole, frac := s[..IndexOf(s, '.')], s[IndexOf(s, '.') + 1..];
    assert whole == w && frac == f;
  }

  /** An unsigned decimal literal starts with neither sign. */
  lemma UnsignedFirst(w: string, f: string)
    requires AllDigits(w)
    ensures var s := w + "." + f; s[0] != '-' && s[0] != '+'
  {
    if |w| > 0 {
      assert (w + "." + f)[0] == w[0] && IsDigit(w[0]);
    }
  }

  /** A literal that starts with neither sign is read unsigned. */
  lemma ReadUnsigned(s: string)
    requires |s| > 0 && s[0] != '-' && s[0] != '+'
    ensures ParseReal(s) == ParseUnsignedReal(s)
  {
  }

  /** A leading minus negates what the unsigned reader gives. */
  lemma ParseRealNegative(t: string)
    ensures ParseReal("-" + t)
      == if ParseUnsignedReal(t).Some? then Some(-ParseUnsignedReal(t).value) else None
  {
    assert ("-" + t)[1..] == t;
  }

  /** An integer n == a·p + b, divided by p as a real, is a + b / p. */
  lemma ScaledSum(n: nat, a: nat, p: nat, b: nat)
    requires p >= 1 && n == a * p + b
    ensures n as real / p as real == a as real + b as real / p as real
  {
    CastShift(n, a, p, b);
    DivideShift(a as real, b as real, p as real);
  }

  /** An integer equation a·p + b, read as reals. */
  lemma CastShift(n: nat, a: nat, p: nat, b: nat)
    requires n == a * p + b
    ensures n as real == a as real * p as real + b as real
  {
  }

  /** A shifted integer divided by its shift: (a·p + b) / p == a + b / p. */
  lemma DivideShift(a: real, b: real, p: real)
    requires p > 0.0
    ensures (a * p + b) / p == a + b / p
  {
  }

  /** The whole part plus the scaled fraction part is the digits read as one integer,
      scaled once. */
  lemma DecimalQuotient(w: string, f: string)
    requires AllDigits(w) && AllDigits(f)
    ensures AllDigits(w + f)
    ensures DigitsValue(w + f) as real / Pow10(|f|) as real == PointValue(w, f)
  {
    DigitsValueAppend(w, f);
    ScaledSum(DigitsValue(w + f), DigitsValue(w), Pow10(|f|), DigitsValue(f));
  }

  /** `float` of a decimal literal: the digits read as one integer, divided by ten to the
      number of digits after the point ("83807.86" is 8380786 / 100). */
  lemma DecimalValue(w: string, f: string)
    requires AllDigits(w) && AllDigits(f) && |w| + |f| > 0
    ensures AllDigits(w + f)
    ensures ParseReal(w + "." + f) == Some(DigitsValue(w + f) as real / Pow10(|f|) as real)
  {
    DecimalQuotient(w, f);
    UnsignedDecimalValue(w, f);
  }

  /** `float` of a negative decimal literal is the negated value of the literal without
      its minus sign. */
  lemma NegativeDecimalValue(w: string, f: string)
    requires AllDigits(w) && AllDigits(f) && |w| + |f| > 0
    ensures AllDigits(w + f)
    ensures ParseReal("-" + w + "." + f) == Some(-(DigitsValue(w + f) as real / Pow10(|f|) as real))
  {
    DecimalQuotient(w, f);
    UnsignedDecimalValue(w, f);
    ParseRealNegative(w + "." + f);
    assert "-" + w + "." + f == "-" + (w + "." + f);
  }

  /** `sub` occurs in `s` starting at position `i`. */
  predicate OccursAt(s: string, sub: string, i: int) {
    0 <= i && i + |sub| <= |s| && s[i..i + |sub|] == sub
  }

  /** Python's `sub in s` for strings. */
  predicate Contains(s: string, sub: string)
    ensures Contains(s, sub) ==> |sub| <= |s|
  {
    exists i | 0 <= i <= |s| - |sub| :: OccursAt(s, sub, i)
  }

  /** Python's `s.endswith(suffix)`. */
  predicate EndsWith(s: string, suffix: string)
    ensures EndsWith(s, suffix) ==> |suffix| <= |s| && s == s[..|s| - |suffix|] + suffix
  {
    |suffix| <= |s| && s[|s| - |suffix|..] == suffix
  }

  /** Whatever stands in front of `sub`, and whatever follows it, `sub` is in the result. */
  lemma ContainsInfix(a: string, sub: string, b: string)
    ensures Contains(a + sub + b, sub)
  {
    assert OccursAt(a + sub + b, sub, |a|);
  }

  /** Appending `suffix` to any string gives a string that ends with it. */
  lemma EndsWithAppend(p: string, suffix: string)
    ensures EndsWith(p + suffix, suffix)
  {
  }

  /** A string ending in `suffix` ends in its last character. */
  lemma EndsWithLast(s: string, suffix: string)
    requires |suffix| > 0
    ensures EndsWith(s, suffix) ==> s[|s| - 1] == suffix[|suffix| - 1]
  {
    if EndsWith(s, suffix) {
      assert s[|s| - |suffix|..][|suffix| - 1] == s[|s| - 1];
    }
  }

  /** A suffix of a suffix is a suffix. */
  lemma EndsWithTrans(s: string, t: string, suffix: string)
    requires EndsWith(s, t) && EndsWith(t, suffix)
    ensures EndsWith(s, suffix)
  {
    assert s[|s| - |suffix|..] == s[|s| - |t|..][|t| - |suffix|..];
  }

  /** Python's `s.split(c)` for a one-character separator. */
  function Split(s: string, c: char): (parts: seq<string>)
    ensures |parts| > 0
    ensures forall i | 0 <= i < |parts| :: c !in parts[i]
    decreases |s|
  {
    if c !in s then [s]
    else
      var k := IndexOf(s, c);
      [s[..k]] + Split(s[k + 1..], c)
  }

  /** Python's `c.join(parts)`. */
  function Join(parts: seq<string>, c: char): string
    requires |parts| > 0
    decreases |parts|
  {
    if |parts| == 1 then parts[0] else parts[0] + [c] + Join(parts[1..], c)
  }

  /** Splitting a joined string gives back the parts, when no part holds the separator. */
  lemma {:induction false} SplitJoin(parts: seq<string>, c: char)
    requires |parts| > 0
    requires forall i | 0 <= i < |parts| :: c !in parts[i]
    ensures Split(Join(parts, c), c) == parts
    decreases |parts|
  {
    if |parts| > 1 {
      var p, rest := parts[0], Join(parts[1..], c);
      var s := Join(parts, c);
      assert s == p + [c] + rest;
      assert s[..|p|] == p;
      IndexOfFirst(s, c, |p|);
      var k := IndexOf(s, c);
      assert s[k + 1..] == rest;
      SplitJoin(parts[1..], c);
    }
  }

  /** Joining the parts of a split gives back the string. */
  lemma {:induction false} JoinSplit(s: string, c: char)
    ensures Join(Split(s, c), c) == s
    decreases |s|
  {
    if c in s {
      var k := IndexOf(s, c);
      JoinSplit(s[k + 1..], c);
      assert s == s[..k] + [c] + s[k + 1..];
    }
  }
}

=== FILE: wrappers.dfy ===
/** Failure-compatible wrappers used throughout the model.
    - Option<T>: a Python value that may be None.
    - Result<T, E>: a computation that either returns a value or raises E. */
module Wrappers {

  datatype Option<+T> = None | Some(value: T)

  datatype Result<+T, +E> = Success(value: T) | Failure(error: E) {

    predicate IsFailure() {
      Failure?
    }

    function PropagateFailure<U>(): Result<U, E>
      requires Failure?
    {
      Failure(error)
    }

    function Extract(): T
      requires Success?
    {
      value
    }
  }
}
